=== FILE: README.md ===
# js-pandemic in Dafny

A model of `index.js` from js-pandemic, a small JavaScript library of
puzzle answers:

- **next palindrome.** `nextPalindrome` validates its argument, spells it
  in decimal and pads an all-nines spelling with a leading `"0"`.
  `_nextPalindrome` then builds the least palindrome above the number. It
  mirrors the left half and the middle digit onto the right half, and first
  adds one to that basis when mirroring alone would not exceed the input.
  `Q2_old` is the older brute-force search for the same answer.
- **prime sieve.** `primes(start, end)` is a Sieve of Eratosthenes.
- **run-length compression.** `compress_scan`, `compress_lookahead` and
  `compress_regex` write each run of a repeated character as the character
  followed by the run length, leaving the length out when it is 1.
  `scanRepeated` is the helper the scan variant uses.

Modules:

| module | file | contents |
|---|---|---|
| `Results` | results.dfy | `Result`/`Option` and the JavaScript errors the library throws |
| `Decimal` | decimal.dfy | digit strings; `BigInt(s)` as `Value`; `n.toString()` as `ToDecimal`; their round trip |
| `Helpers` | helpers.dfy | `reverseString`, `shaveLast`, `_even`/`_odd`, `isPalindrome`, JavaScript string order |
| `PalindromeCore` | palindrome_core.dfy | `_nextPalindrome` and the proof that it returns the least palindrome above its input |
| `PalindromeApi` | palindrome_api.dfy | `nextPalindrome`: error checks, spelling, the all-nines padding |
| `PalindromeSearch` | palindrome_search.dfy | `Q2_old` and its agreement with `nextPalindrome` |
| `Sieve` | sieve.dfy | `primes` on an array, with the striking loop's invariant |
| `Runs` | runs.dfy | the meaning shared by the compressors: the unique cut into maximal runs, written out |
| `Compress` | compress.dfy | `scanRepeated` and the three compressors, each proved equal to that meaning: `compress_lookahead` everywhere, `compress_scan` on text without regex syntax characters (with the character escaped, everywhere), `compress_regex` on text without line terminators; `compress_scan` as written on a backslash |

Thrown exceptions become `Err` values of `Results.Result`. JavaScript's
`null` becomes `Option.None`. JavaScript `undefined` past the end of a
string becomes `None` as well.

Three behaviours of the source are easy to miss, and the model keeps each
of them as the code has it:

- `nextPalindrome` does not re-spell a string argument canonically. It
  passes `num.toString()` on as it is, leading zeros included. See
  Findings.
- `primes` checks no argument itself. Its only error is the RangeError
  that `new Array(end + 1)` throws when `end + 1` lies outside
  [0, 2^32 - 1], that is, when `end < -1` or `end > 2^32 - 2`. For
  `end = -1` the array is empty and the result is `[]`.
- The three compressors are not interchangeable on line terminators. See
  Findings.

## Model

| member | source | states |
|---|---|---|
| Helpers.Reverse | index.js:5-10 | the result has the input's length and holds at position i the character at position \|s\|-1-i |
| Helpers.ReverseInvolution | index.js:5-10 | reversing twice gives back the input |
| Helpers.ReverseConcat | index.js:5-10 | reversing a concatenation reverses each part and swaps them |
| Helpers.ShaveLast | index.js:24-26 | "" stays ""; otherwise the result with the dropped last character appended is the input |
| Helpers.PalindromeIffSymmetric | index.js:15-19 | `isPalindrome(num)` holds exactly when the decimal spelling has equal characters at mirrored positions |
| Helpers.IsEven | index.js:28 | `_even(n)` holds exactly when n is twice its half |
| Helpers.IsOdd | index.js:29 | `_odd(n)` holds exactly when n is one more than twice its half |
| Helpers.LexLessIffFirstDifference | index.js:91 | JavaScript's `a < b` on strings holds exactly when a is a proper prefix of b, or a has the smaller character at the first position where the two differ |
| Helpers.LexLessIffValueLess | index.js:91 | for digit strings of equal length, the JavaScript string comparison agrees with the numeric one |
| Decimal.Value | index.js:96 | `BigInt` of a k-digit string is below 10^k |
| Decimal.ToDecimalSpec | index.js:92 | `toString` prints a canonical digit string that `BigInt` reads back as n; it prints "0" exactly for 0 |
| Decimal.ToDecimalValue | index.js:92 | printing the value of a canonical digit string gives the string back: the other half of the round trip |
| Decimal.ValueAppend | index.js:96 | reading a concatenation of digits is the positional law value(a) * 10^\|b\| + value(b) |
| Decimal.ValueInjective | index.js:96 | two digit strings of equal length and equal value are equal |
| Decimal.ToDecimalLength | index.js:92 | a number in [10^(k-1), 10^k) prints with exactly k digits |
| Decimal.AllNinesValue | index.js:113 | a digit string is all nines exactly when its value is 10^\|s\| - 1; for a non-empty string that is the `/^9+$/` test, while the empty string is all nines vacuously and `PadAllNines` adds the non-empty guard |
| Decimal.PrefixDecides | index.js:89-91 | of two equal-length digit strings, the one with the smaller leading part is the smaller number |
| PalindromeCore.Split | index.js:77-83 | left, middle, right concatenate to the input; left and right have floor(L/2) characters; middle has one exactly when L is odd |
| PalindromeCore.Mirror | index.js:86-87 | the mirror starts with the basis and has the basis length plus h characters |
| PalindromeCore.NextPalindromeDigits | index.js:76-96 | `_nextPalindrome` hands `BigInt` a digit string in both branches |
| PalindromeCore.BumpedPalindrome | index.js:92-93 | the increment branch writes a digit string |
| PalindromeCore.NextPalindromeUnique | index.js:58-59 | the least palindrome above n is unique |
| PalindromeCore.MirrorPalindromic | index.js:86-96 | mirroring a basis of length h or h+1 about its first h characters always gives a palindromic string |
| PalindromeCore.PalindromicIsMirror | index.js:86-96 | every palindromic string is the mirror of its own first ceil(L/2) characters |
| PalindromeCore.PalindromeBasis | index.js:86-96 | every palindrome is the value of the mirror of some basis of ceil(L/2) digits |
| PalindromeCore.MirrorMonotone | index.js:86-96 | between mirrors of equal width, the larger basis gives the larger number |
| PalindromeCore.MirrorExceedsIff | index.js:89-91 | `right >= reverse(left)` holds exactly when the plain mirror of the basis does not exceed the input |
| PalindromeCore.BasisDecomposition | index.js:86 | the input is basis * 10^floor(L/2) + right |
| PalindromeCore.BumpedBasisLowerBound | index.js:92 | on width-keeping inputs the bumped basis has at least ceil(L/2) digits |
| PalindromeCore.BumpedBasisUpperBound | index.js:89-92 | when the plain mirror does not exceed the input, the basis is not all nines |
| PalindromeCore.BumpedBasisWidth | index.js:92 | in that case the bumped basis prints with exactly ceil(L/2) digits and reads back as the basis plus one |
| PalindromeCore.CoreKeepsBasis | index.js:86-96 | without the increment, the result is the value of the mirror of the input's own basis |
| PalindromeCore.CoreBumpsBasis | index.js:91-96 | with the increment, the result is the value of the mirror of the printed basis plus one |
| PalindromeCore.DigitsWhenBumped | index.js:91-96 | in the increment branch the digits are those the bumped basis writes |
| PalindromeCore.BumpedPalindromeIsMirror | index.js:92-93 | appending `reverse(isOdd ? shaveLast(basis) : basis)` is mirroring the bumped basis about its first floor(L/2) digits |
| PalindromeCore.BumpedMirrorExceeds | index.js:89-94 | when the plain mirror does not exceed the input, the mirror of the bumped basis does |
| PalindromeCore.NoMirrorBetween | index.js:89-94 | no mirror of any basis lies strictly between the input and the mirror the core picks |
| PalindromeCore.NoPalindromeBetween | index.js:89-94 | no palindrome at all lies strictly between the input and the mirror the core picks |
| PalindromeCore.MirrorIsNext | index.js:86-96 | the mirror the core picks is the least palindrome above the input |
| PalindromeCore.KeptBasisIsNext | index.js:86-96 | in the plain-mirror branch, `_nextPalindrome` returns the least palindrome above its input |
| PalindromeCore.BumpedBasisIsNext | index.js:91-96 | in the increment branch, `_nextPalindrome` returns the least palindrome above its input |
| PalindromeCore.NextPalindromeCore | index.js:76-97 | on every digit string whose successor has the same width, the value returned is the least palindrome strictly greater than the input |
| PalindromeCore.CoreIsNextPalindrome | index.js:76-97 | on every digit string whose successor has the same width, `_nextPalindrome` returns the least palindrome strictly greater than the input |
| PalindromeApi.Magnitude | index.js:106 | the value compared with 0 is non-negative for a digit string |
| PalindromeApi.Spell | index.js:110 | `num.toString()` is a digit string with the argument's value, canonical for numbers and bigints |
| PalindromeApi.PadAllNines | index.js:113-115 | padding keeps the value, and turns every canonical positive spelling into a width-keeping input of the core |
| PalindromeApi.NextPalindrome | index.js:99-118 | each error is thrown exactly in its own case, in source order, and the call succeeds exactly when none applies |
| PalindromeApi.NextPalindromeCorrect | index.js:99-118 | for a number, a bigint or a string without leading zeros, a successful call returns the least palindrome strictly greater than the argument |
| PalindromeApi.PaddedNinesTakeIncrement | index.js:112-115 | after padding, an all-nines spelling always takes the increment branch |
| PalindromeApi.PowerPlusOnePalindrome | index.js:15-19 | 10^k + 1 is a palindrome |
| PalindromeApi.PowerNotPalindrome | index.js:15-19 | 10^k, for k >= 1, is not a palindrome |
| PalindromeApi.NinesNextIsPowerPlusOne | index.js:112-117 | the least palindrome above 10^k - 1 is 10^k + 1 |
| PalindromeApi.AllNinesNext | index.js:99-117 | an argument of value 10^k - 1 (k nines: 9, 99, 999, ... as a number, a bigint or a string without leading zeros) yields 10^k + 1 (11, 101, 1001, ...), except that a number above MAX_SAFE_INTEGER is refused with a RangeError |
| PalindromeApi.SafeNinesNext | index.js:110-117 | an accepted argument of k nines is padded and bumped to 10^k + 1 |
| PalindromeApi.NextPalindromeIs | index.js:99-118 | wherever the least palindrome above an accepted, canonically spelled argument is v, `nextPalindrome` returns v |
| PalindromeApi.IncrementOn0123 | index.js:81-91 | "0123" is cut as "01", "", "23" and takes the increment branch |
| PalindromeApi.BumpedOn01 | index.js:92-96 | the basis "01" is bumped to "2" and mirrored to "22" |
| PalindromeApi.DigitsOn0123 | index.js:76-96 | the core spells its answer for "0123" as "22", which reads as 22 |
| PalindromeApi.CoreOn0123 | index.js:76-97 | the core maps "0123" to 22 |
| PalindromeApi.LeadingZeroCounterexample | index.js:99-118 | `nextPalindrome("0123")` returns 22, which is not the least palindrome above 123 |
| PalindromeApi.NextPalindromeCanonical | index.js:99-118 | the corrected wrapper fails exactly where the original does, and otherwise returns the least palindrome above the argument's value |
| PalindromeApi.CanonicalAgrees | index.js:110 | on canonically spelled arguments the corrected wrapper returns the same as the original |
| PalindromeSearch.Q2Old | index.js:218-235 | RangeError exactly outside [0, MAX_SAFE_INTEGER]; a found value is the least palindrome above K and below MAX_SAFE_INTEGER; `null` only when no palindrome lies in (K, MAX_SAFE_INTEGER) |
| PalindromeSearch.NextPalindromeAgreesWithQ2Old | index.js:227-231 | for a positive safe integer K, the least palindrome above K, which is what the search returns when it finds one, is what `nextPalindrome(K)` returns (at K = 0 the search returns 1 while `nextPalindrome` throws) |
| Sieve.Primes | index.js:37-56 | RangeError exactly when the array length end + 1 lies outside [0, 2^32 - 1]; otherwise the strictly ascending list of exactly the primes in [start, end] |
| Sieve.Strike | index.js:44-46 | the inner loop clears exactly the multiples of x from x*x on and nothing else |
| Sieve.Collect | index.js:50-54 | the `reduce` keeps exactly the surviving indices that are >= start and > 1, in ascending order |
| Sieve.PrimeStep | index.js:42-47 | striking with a surviving x adds exactly the divisor x to those excluded |
| Sieve.CompositeStep | index.js:42-47 | skipping a struck x excludes nothing new |
| Sieve.SurvivorsArePrime | index.js:42 | once x*x exceeds i, surviving the strikes is the same as being prime |
| Sieve.SmallFactor | index.js:42 | every composite from 2 on has a factor whose square does not exceed it |
| Runs.Expand | index.js:145-147 | a run spells out exactly len copies of its character |
| Runs.LeadingRunLength | index.js:120-128 | the count is the longest prefix of copies of c: the next character, if any, differs |
| Runs.Runs | index.js:136-152 | the runs are non-empty, neighbours differ, and they spell out the input |
| Runs.DecompositionUnique | index.js:136-152 | any cut into non-empty runs with differing neighbours is that one |
| Runs.RunEnd | index.js:142-148 | the end of the run at i lies after i and within the string |
| Runs.RunEndMaximal | index.js:142-148 | the run from i to its end is one repeated character and cannot be extended |
| Runs.RunEndExact | index.js:142-148 | only the end of the maximal run meets those conditions |
| Runs.CompressedEncodesRuns | index.js:145-147 | the intended compression writes out the maximal runs of the input in order |
| Compress.LiteralScan | index.js:129-134 | the length of the run of c that starts at c's first occurrence in t, which is what matching one or more literal copies of c finds; 0 exactly when c does not occur |
| Compress.ScanRepeated | index.js:129-134 | for a character without a meaning in a pattern, `scanRepeated` is that literal scan |
| Compress.ScanBackslash | index.js:129-134 | for a backslash the pattern `\+` matches a single '+', so the count is at most 1 and is 0 exactly when no '+' occurs |
| Compress.ScanRepeatedExamples | index.js:120-128 | the three documented examples: 'aaab' gives 3, 'abb' gives 1, 'b' gives 0; also 'baab' gives 2 and ']]x' gives 2 |
| Compress.CompressScan | index.js:138-152 | on text without regex syntax characters, `compress_scan` returns the intended compression |
| Compress.CompressScanEscaped | index.js:138-152 | with the character escaped before it enters the pattern, `compress_scan` returns the intended compression on every string |
| Compress.ScanPass | index.js:142-149 | a pass of the loop as written moves the index forward by the count and stays within the string; for a plain character the count is the literal scan |
| Compress.ScanAsWritten | index.js:129-134 | `scanRepeated` as written never counts past the string, and for a plain character is the literal scan |
| Compress.ScanPassPlain | index.js:142-149 | a pass over a plain character moves the index past the maximal run there, and the output plus the compression from the new index is the output plus the compression from the old one |
| Compress.RunWritten | index.js:145-147 | writing the maximal run at the index keeps the output on course for the intended compression |
| Compress.BackslashStalls | index.js:129-148 | at a backslash with no '+' from there on, the loop as written never reaches the end, whatever the number of passes |
| Compress.BackslashScanLoops | index.js:129-148 | `compress_scan("\\")` as written never returns, while the intended compression of "\\" is "\\" |
| Compress.ScanStep | index.js:142-149 | one pass of the scan loop writes the run at the index and jumps to its end |
| Compress.CompressLookahead | index.js:158-181 | `compress_lookahead` returns the intended compression |
| Compress.EmitStep | index.js:173-177 | when the next character differs, the counter is the length of a maximal run, and writing it is one step |
| Compress.Advance | index.js:169-173 | the pending run either restarts after a write or grows by the character the lookahead saw |
| Compress.CompressFromRun | index.js:145-147 | the compression from the start of a maximal run writes that run, then the rest |
| Compress.ReplaceRuns | index.js:184-188 | the replacement never lengthens the text, is empty exactly when the text is, and keeps its first character |
| Compress.DecimalShorter | index.js:187 | a run length of 2 or more prints in fewer characters than the run it replaces |
| Compress.ReplaceRunsHead | index.js:184-188 | at a first character `.` matches, one replacement step writes the leading run as the character and, for 2 or more, its length, then continues after the run |
| Compress.ReplaceRunsCompresses | index.js:184-188 | where `.` matches every character, the replacement writes exactly the maximal runs |
| Compress.CompressRegex | index.js:184-188 | on text without line terminators, `compress_regex` returns the intended compression |
| Compress.CompressRegexDotAll | index.js:184-188 | with the `s` flag the replacement returns the intended compression on every string |
| Compress.LineTerminatorRunKept | index.js:186 | `compress_regex("\n\n")` is "\n\n", where the intended compression is "\n2" |

## Left out

- `isNodeEnv` and the `module.exports` block (index.js:1, 237-243) and the `compress_algorithms` table (index.js:190-194) are module plumbing with no behaviour of their own.
- Strings are sequences of Unicode scalar values. JavaScript indexes, reverses and matches `.` by UTF-16 code units, so strings with characters outside the Basic Multilingual Plane are not modelled.
- Arguments of `nextPalindrome` are integer numbers, bigints, digit strings or arrays. Non-integer numbers, `NaN`, objects, and strings with characters other than digits are not modelled, nor is the JavaScript coercion that `num <= 0` applies to them. For a digit string that coercion is its decimal value, which is what `Magnitude` uses.
- The comment's bound of 1,000,000 digits is not modelled. Digit strings have any length.
- PalindromeCore.NextPalindromeCore and PalindromeCore.CoreIsNextPalindrome: stated only for inputs whose successor has as many digits as the input. Every input that `nextPalindrome` builds from a number, a bigint or a canonical string meets that condition, because of the all-nines padding (`PadAllNines`). An all-nines input handed to the core directly is outside it.
- PalindromeApi.NextPalindromeCorrect: stated only for canonically spelled arguments. Strings with leading zeros break the promise (see Findings).
- Decimal.ToDecimal, Helpers.IsPalindrome, Helpers.LexLess and PalindromeCore.TakesIncrement carry no `ensures` of their own. Their meaning is stated by the lemmas `ToDecimalSpec`, `PalindromeIffSymmetric`, `LexLessIffFirstDifference` and `MirrorExceedsIff`. Kept as lemmas, these facts enter only the proofs that call for them.
- PalindromeApi.AllNinesNext: covers arguments spelled without leading zeros. A string such as "099" is not all nines, so it is not padded. The core still returns 101 for it, because 99 + 1 keeps three digits, but that case falls under `CoreIsNextPalindrome` and not under this lemma.
- Compress.ScanRepeated: requires the character not to be one of `^$\.*+?()[|`. In `new RegExp(character + '+')`, without the `u` flag, those characters do not stand for themselves. For `^ $ * + ? ( ) [ |` the pattern is rejected and `new RegExp` throws a SyntaxError (nothing to repeat, an unterminated group or class, or an unmatched parenthesis). `.+` matches any run of characters other than line terminators, so `compress_scan(".ab")` returns ".3". A backslash makes the loop run forever (see Findings; `ScanBackslash` models that case). The regular-expression engine behind the other cases is not modelled.
- Compress.CompressScan: requires that no character of the input be one of `^$\.*+?()[|`, for the reasons given for `ScanRepeated`. `CompressScanEscaped` covers every string, and `CompressScanFuel` follows the loop as written through backslashes.
- Compress.CompressScanFuel: returns `None` when a pass meets a regex syntax character other than a backslash, because those patterns are not modelled. Agreement with the intended compression is proved pass by pass (`ScanPassPlain`), not for the whole fuel-bounded loop. `CompressScan` states the whole-loop result for the same text.
- Sieve.Primes: `Math.sqrt(n)` in the outer bound is modelled as the integer test x*x <= n. `Math.sqrt` is correctly rounded, and on every length `new Array` accepts (n <= 2^32 - 1) the square root of x*x - 1 lies further below x than the spacing of doubles near it, so `x <= Math.sqrt(n)` holds exactly when x*x <= n.
- Sieve.Primes: the inner loop's `y <= n` writes one cell past the array. JavaScript grows the array by that `false` cell, and the `reduce` never lists a `false` cell. The model stops at y < n, which gives the same result.
- Sieve.Primes: bounds are integers by type. For a non-integer `end`, `new Array(end + 1)` throws a RangeError. A non-integer `start` is only compared with the indices. Neither case is modelled.
- PalindromeSearch.Q2Old: the TypeError for a non-integer `K` is not modelled, because the argument is an integer by type. Run time, which the source notes is very slow near MAX_SAFE_INTEGER, is not modelled either.
- The model uses no clock, randomness, I/O or network. The library uses none.

## Findings

| source | as written | input that shows it | evidently intended | confidence | as-written member | corrected member |
|---|---|---|---|---|---|---|
| index.js:110-117 | a string argument is passed to `_nextPalindrome` as `num.toString()` leaves it, leading zeros included, so the left and right halves are cut at the wrong place | `nextPalindrome("0123")` returns 22, below the argument 123 (intended: 131) | spell the argument's value canonically before padding and mirroring, as is done for numbers and bigints | high; proved in the model, not executed | PalindromeApi.LeadingZeroCounterexample | PalindromeApi.NextPalindromeCanonical |
| index.js:129-148 | `scanRepeated('\\', str)` builds the pattern `\+`, an escaped plus sign with no quantifier, which matches one '+'; without a '+' in the rest of the string the count is 0, and `index += 0` leaves the loop where it was | `compress_scan("\\")` never returns: each pass appends a backslash and "0" | "\\", the compression `compress_lookahead` returns, which escaping the character before building the pattern gives | high; proved in the model, not executed | Compress.BackslashScanLoops | Compress.CompressScanEscaped |
| index.js:184-188 | `/(.)\1+/g` has no `s` flag, so `.` does not match `\n`, `\r`, U+2028 or U+2029, and runs of those characters are copied uncompressed | `compress_regex("\n\n")` returns "\n\n", where `compress_scan` and `compress_lookahead` return "\n2" | the same output as the other two compressors, which `/(.)\1+/gs` gives | medium; the three are offered as interchangeable variants; not executed | Compress.LineTerminatorRunKept | Compress.CompressRegexDotAll |

=== FILE: compress.dfy ===
/**
 * The three run-length compressors: `compress_scan` (jumps over each run
 * using `scanRepeated`), `compress_lookahead` (counts characters until the
 * next one differs) and `compress_regex` (replaces every match of
 * `/(.)\1+/g` by the character and the match length).
 */
module Compress {
  import opened Results
  import opened Decimal
  import opened Runs

  /**
   * Characters that, followed by `+`, do not form a pattern matching runs of
   * themselves in a regular expression without the `u` flag: anchors,
   * escapes, quantifiers, groups, classes and alternation. `]`, `{` and `}`
   * are ordinary pattern characters there (section B.1.2 of ECMA-262).
   */
  predicate IsRegexSyntax(c: char) {
    c in {'^', '$', '\\', '.', '*', '+', '?', '(', ')', '[', '|'}
  }

  /** The characters `.` does not match unless the `s` flag is given. */
  predicate IsLineTerminator(c: char) {
    c == '\n' || c == '\r' || c == '\U{2028}' || c == '\U{2029}'
  }

  predicate NoLineTerminator(s: string) {
    forall i :: 0 <= i < |s| ==> !IsLineTerminator(s[i])
  }

  /**
   * The length of the run of c that starts at c's first occurrence in t, or
   * 0 when c does not occur: what `t.match` reports for a pattern matching
   * one or more literal copies of c.
   */
  function LiteralScan(c: char, t: string): (k: nat)
    ensures k <= |t|
    ensures k == 0 <==> c !in t
    ensures |t| > 0 && t[0] == c ==> k == LeadingRunLength(c, t)
    ensures forall i :: 0 <= i < |t| && t[i] == c && c !in t[..i] ==> k == LeadingRunLength(c, t[i..])
    decreases |t|
  {
    if t == [] then 0
    else if t[0] == c then
      assert t[0..] == t;
      LeadingRunLength(c, t)
    else
      assert forall i :: 1 <= i <= |t| ==> t[1..][i - 1..] == t[i..] && t[..i] == [t[0]] + t[1..][..i - 1];
      LiteralScan(c, t[1..])
  }

  /**
   * `scanRepeated(character, str)`: the length of the first match of
   * `character+` in str. For a character with no meaning of its own in the
   * pattern that is the literal scan: the run of the character starting at
   * its first occurrence, or 0 when it does not occur.
   */
  function ScanRepeated(c: char, t: string): (k: nat)
    requires !IsRegexSyntax(c)
    ensures k == LiteralScan(c, t)
    ensures k == 0 <==> c !in t
    ensures forall i :: 0 <= i < |t| && t[i] == c && c !in t[..i] ==> k == LeadingRunLength(c, t[i..])
  {
    LiteralScan(c, t)
  }

  /**
   * `scanRepeated('\\', str)` as written: the pattern `\+` is an escaped plus
   * sign with no quantifier, so it matches one '+'. The count is 1 when str
   * holds a '+' and 0 otherwise, whatever backslashes str holds.
   */
  function ScanBackslash(t: string): (k: nat)
    ensures k <= 1
    ensures k == 0 <==> '+' !in t
  {
    if '+' in t then 1 else 0
  }

  /**
   * The three examples of the doc comment ('aaab' gives 3, 'abb' gives 1,
   * 'b' gives 0), a run that does not start the string: 'baab' gives 2, and
   * a bracket, which the pattern `]+` reads literally: ']]x' gives 2.
   */
  lemma ScanRepeatedExamples()
    ensures ScanRepeated('a', "aaab") == 3
    ensures ScanRepeated('a', "abb") == 1
    ensures ScanRepeated('a', "b") == 0
    ensures ScanRepeated('a', "baab") == 2
    ensures ScanRepeated(']', "]]x") == 2
  {
    LeadingRunExact('a', "aaab", 3);
    LeadingRunExact('a', "abb", 1);
    LeadingRunExact('a', "aab", 2);
    assert "baab"[1..] == "aab";
    LeadingRunExact(']', "]]x", 2);
  }

  /** acc is what a compressor has written for the runs that end before index. */
  ghost predicate WrittenUpTo(acc: string, s: string, index: nat, whole: string)
    requires index <= |s|
  {
    acc + CompressFrom(s, index) == whole
  }

  /** `compress_scan`: write the character at index and skip the run `scanRepeated` reports. */
  method CompressScan(s: string) returns (acc: string)
    requires forall i :: 0 <= i < |s| ==> !IsRegexSyntax(s[i])
    ensures acc == Compressed(s)
  {
    acc := [];
    var index := 0;
    ghost var whole := Compressed(s);
    while index < |s|
      invariant 0 <= index <= |s|
      invariant WrittenUpTo(acc, s, index, whole)
      decreases |s| - index
    {
      var currentChar := s[index];
      var occurrences := ScanRepeated(currentChar, s[index..]);
      var displayCount := if occurrences == 1 then "" else ToDecimal(occurrences);
      ghost var before, from := acc, index;
      acc := acc + ([currentChar] + displayCount);
      index := index + occurrences;
      ScanStep(s, from, currentChar, occurrences, displayCount, before, acc, index, whole);
    }
  }

  /**
   * `compress_scan` with the character escaped before it enters the pattern,
   * so that every character is scanned literally: on every string it returns
   * the intended compression.
   */
  method CompressScanEscaped(s: string) returns (acc: string)
    ensures acc == Compressed(s)
  {
    acc := [];
    var index := 0;
    ghost var whole := Compressed(s);
    while index < |s|
      invariant 0 <= index <= |s|
      invariant WrittenUpTo(acc, s, index, whole)
      decreases |s| - index
    {
      var currentChar := s[index];
      var occurrences := LiteralScan(currentChar, s[index..]);
      var displayCount := if occurrences == 1 then "" else ToDecimal(occurrences);
      ghost var before, from := acc, index;
      acc := acc + ([currentChar] + displayCount);
      index := index + occurrences;
      ScanStep(s, from, currentChar, occurrences, displayCount, before, acc, index, whole);
    }
  }

  /**
   * `compress_scan` as written, allowed at most `fuel` passes of its loop:
   * `Some` of the output when the index reaches the end within them, `None`
   * when it does not, or when a pass meets a character other than a
   * backslash whose pattern has a meaning of its own (not modelled).
   */
  function CompressScanFuel(s: string, acc: string, index: nat, fuel: nat): Option<string>
    requires index <= |s|
    decreases fuel
  {
    if index == |s| then Some(acc)
    else if fuel == 0 || !PlainOrBackslash(s[index]) then None
    else
      var next := ScanPass(s, acc, index);
      CompressScanFuel(s, next.0, next.1, fuel - 1)
  }

  /**
   * One pass of the `compress_scan` loop as written: the output and the
   * index after it. The pass writes the character followed by the count
   * `scanRepeated` reports, unless that count is 1, which is the run of that
   * character and length encoded, and skips that many characters.
   */
  function ScanPass(s: string, acc: string, index: nat): (r: (string, nat))
    requires index < |s| && PlainOrBackslash(s[index])
    ensures index <= r.1 <= |s|
    ensures s[index] != '\\' ==> r.1 == index + LiteralScan(s[index], s[index..])
  {
    var c := s[index];
    var occurrences := ScanAsWritten(c, s[index..]);
    (acc + EncodeRun(Run(c, occurrences)), index + occurrences)
  }

  /** A character without a meaning in a pattern, or a backslash. */
  predicate PlainOrBackslash(c: char) {
    !IsRegexSyntax(c) || c == '\\'
  }

  /** `scanRepeated(c, t)` as written, for a plain character or a backslash. */
  function ScanAsWritten(c: char, t: string): (k: nat)
    requires PlainOrBackslash(c)
    ensures k <= |t|
    ensures c != '\\' ==> k == LiteralScan(c, t)
  {
    if c == '\\' then ScanBackslash(t) else ScanRepeated(c, t)
  }

  /**
   * A pass over a character without a meaning in a pattern moves the index
   * past the run there and keeps the output on course for the compression.
   */
  lemma ScanPassPlain(s: string, acc: string, index: nat)
    requires index < |s| && !IsRegexSyntax(s[index])
    ensures PlainOrBackslash(s[index])
    ensures index < ScanPass(s, acc, index).1
    ensures ScanPass(s, acc, index).0 + CompressFrom(s, ScanPass(s, acc, index).1) == acc + CompressFrom(s, index)
  {
    var r := ScanPass(s, acc, index);
    RunEndIsLeadingRun(s, index);
    assert s[index..][0] == s[index];
    assert r.1 == RunEnd(s, index);
    RunWritten(s, acc, index, r.0, r.1);
  }

  /** Writing the maximal run at index after acc keeps the output on course for the compression. */
  lemma RunWritten(s: string, acc: string, index: nat, out: string, to: nat)
    requires index < |s| && to == RunEnd(s, index)
    requires out == acc + EncodeRun(Run(s[index], to - index))
    ensures out + CompressFrom(s, to) == acc + CompressFrom(s, index)
  {
    CompressFromUnfold(s, index);
    Assoc(acc, EncodeRun(Run(s[index], to - index)), CompressFrom(s, to), acc + CompressFrom(s, index));
  }

  /**
   * At a backslash with no '+' from there on, a pass of `compress_scan` as
   * written counts 0: it appends a backslash and "0" and leaves the index
   * where it was, so no number of passes reaches the end.
   */
  lemma {:induction false} BackslashStalls(s: string, acc: string, index: nat, fuel: nat)
    requires index < |s| && s[index] == '\\' && '+' !in s[index..]
    ensures CompressScanFuel(s, acc, index, fuel) == None
    decreases fuel
  {
    if fuel > 0 {
      assert ScanAsWritten('\\', s[index..]) == 0;
      var next := ScanPass(s, acc, index);
      assert next.1 == index;
      assert CompressScanFuel(s, acc, index, fuel) == CompressScanFuel(s, next.0, index, fuel - 1);
      BackslashStalls(s, next.0, index, fuel - 1);
    }
  }

  /**
   * `compress_scan("\\")` as written never ends: the scan of a backslash
   * counts 0, so each pass appends a backslash and "0" and leaves the index
   * where it was. The intended output, the compression of "\\", is "\\".
   */
  lemma BackslashScanLoops(acc: string, fuel: nat)
    ensures CompressScanFuel("\\", acc, 0, fuel) == None
    ensures Compressed("\\") == "\\"
  {
    assert "\\"[0..] == "\\" && '+' !in "\\";
    BackslashStalls("\\", acc, 0, fuel);
    CompressFromUnfold("\\", 0);
    assert RunEnd("\\", 0) == 1;
  }

  /**
   * One pass of the scan loop: the count `scanRepeated` reports at `from` is
   * the length of the maximal run there, so writing it moves the output on
   * by one run and the index to that run's end.
   */
  lemma ScanStep(s: string, from: nat, c: char, occurrences: nat, displayCount: string,
                 before: string, after: string, to: nat, whole: string)
    requires from < |s| && c == s[from]
    requires occurrences == LiteralScan(c, s[from..])
    requires displayCount == if occurrences == 1 then "" else ToDecimal(occurrences)
    requires WrittenUpTo(before, s, from, whole)
    requires after == before + ([c] + displayCount) && to == from + occurrences
    ensures from < to <= |s| && WrittenUpTo(after, s, to, whole)
  {
    RunEndIsLeadingRun(s, from);
    CompressFromRun(s, from, to, c, occurrences);
    assert EncodeRun(Run(c, occurrences)) == [c] + displayCount;
    WriteStep(s, from, to, [c] + displayCount, before, after, whole);
  }

  /**
   * `compress_lookahead`: count the current character and, when the next
   * one (`undefined` past the end) differs, write the run and reset the
   * counter. The ghost `start` marks where the pending run began.
   */
  method CompressLookahead(s: string) returns (acc: string)
    ensures acc == Compressed(s)
  {
    acc := [];
    var index, repeatCounter := 0, 0;
    ghost var start, whole := 0, Compressed(s);
    while index < |s|
      invariant start + repeatCounter == index <= |s|
      invariant WrittenUpTo(acc, s, start, whole)
      invariant Pending(s, start, index)
    {
      ghost var end := index + 1;
      repeatCounter := repeatCounter + 1;
      var current := s[index];
      var next: Option<char> := if index + 1 < |s| then Some(s[index + 1]) else None;
      if Some(current) != next {
        var displayCount := if repeatCounter == 1 then "" else ToDecimal(repeatCounter);
        ghost var before := acc;
        acc := acc + ([current] + displayCount);
        EmitStep(s, start, index, current, next, repeatCounter, displayCount, before, acc, end, whole);
        repeatCounter := 0;
        start := end;
      }
      Advance(s, start, index, current, next, end);
      index := index + 1;
    }
  }

  /** s[start..index] is one character repeated and, when non-empty, the run goes on at index. */
  ghost predicate Pending(s: string, start: nat, index: nat) {
    start <= index <= |s| &&
    (forall m :: start <= m < index ==> s[m] == s[start]) &&
    (start < index ==> index < |s| && s[index] == s[start])
  }

  /** When the character after `last` differs, the pending run is maximal and writing it is one step. */
  lemma EmitStep(s: string, start: nat, last: nat, c: char, next: Option<char>, count: nat,
                 displayCount: string, before: string, after: string, end: nat, whole: string)
    requires Pending(s, start, last) && last < |s| && c == s[last] && end == last + 1
    requires next == if end < |s| then Some(s[end]) else None
    requires Some(c) != next && start + count == end
    requires displayCount == if count == 1 then "" else ToDecimal(count)
    requires WrittenUpTo(before, s, start, whole)
    requires after == before + ([c] + displayCount)
    ensures WrittenUpTo(after, s, end, whole)
  {
    PendingIsRun(s, start, last, c, end);
    CompressFromRun(s, start, end, c, count);
    assert EncodeRun(Run(c, count)) == [c] + displayCount;
    WriteStep(s, start, end, [c] + displayCount, before, after, whole);
  }

  /** A pending run that ends at `last` covers s[start..last + 1] with the character at last. */
  lemma PendingIsRun(s: string, start: nat, last: nat, c: char, end: nat)
    requires Pending(s, start, last) && last < |s| && c == s[last] && end == last + 1
    ensures forall m :: start <= m < end ==> s[m] == c
  {
  }

  /** The pending run either starts afresh after a write or grows by the character the lookahead saw. */
  lemma Advance(s: string, start: nat, last: nat, current: char, next: Option<char>, end: nat)
    requires last < |s| && current == s[last] && end == last + 1
    requires next == if end < |s| then Some(s[end]) else None
    requires start == end || (Pending(s, start, last) && next == Some(current))
    ensures Pending(s, start, end)
  {
  }

  /** The compression from the start of a maximal run is that run written out, then the rest. */
  lemma CompressFromRun(s: string, start: nat, end: nat, c: char, count: nat)
    requires start < end <= |s| && c == s[start] && start + count == end
    requires forall m :: start <= m < end ==> s[m] == c
    requires end < |s| ==> s[end] != c
    ensures CompressFrom(s, start) == EncodeRun(Run(c, count)) + CompressFrom(s, end)
  {
    RunEndExact(s, start, end);
  }

  /** Writing the piece that the compression from start begins with moves the output on to end. */
  lemma WriteStep(s: string, start: nat, end: nat, piece: string, before: string, after: string,
                  whole: string)
    requires start <= end <= |s|
    requires CompressFrom(s, start) == piece + CompressFrom(s, end)
    requires WrittenUpTo(before, s, start, whole) && after == before + piece
    ensures WrittenUpTo(after, s, end, whole)
  {
    Assoc(before, piece, CompressFrom(s, end), whole);
  }

  /** Regrouping the concatenation of the output so far, the piece written and the rest. */
  lemma Assoc(acc: string, piece: string, after: string, whole: string)
    requires acc + (piece + after) == whole
    ensures acc + piece + after == whole
  {
  }

  /**
   * `s.replace(/(.)\1+/g, ...)`, or with the `s` flag when dotAll holds:
   * at each position a character `.` matches that repeats at least once is
   * replaced, with all its repeats, by itself and the run length; any
   * other character is copied.
   */
  function ReplaceRuns(s: string, dotAll: bool): (r: string)
    ensures |r| <= |s|
    ensures |r| == 0 <==> |s| == 0
    ensures |s| > 0 ==> r[0] == s[0]
    decreases |s|
  {
    if s == [] then []
    else if !dotAll && IsLineTerminator(s[0]) then [s[0]] + ReplaceRuns(s[1..], dotAll)
    else
      var k := LeadingRunLength(s[0], s);
      if k >= 2 then
        DecimalShorter(k);
        [s[0]] + ToDecimal(k) + ReplaceRuns(s[k..], dotAll)
      else [s[0]] + ReplaceRuns(s[1..], dotAll)
  }

  /** A run length of two or more prints in fewer characters than the run it replaces. */
  lemma {:induction false} DecimalShorter(k: nat)
    requires k >= 2
    ensures |ToDecimal(k)| < k
    decreases k
  {
    if k >= 10 && k / 10 >= 2 {
      DecimalShorter(k / 10);
    }
  }

  /** Wherever `.` matches every character, the replacement writes exactly the maximal runs. */
  lemma {:induction false} ReplaceRunsCompresses(s: string, i: nat, dotAll: bool)
    requires i <= |s|
    requires dotAll || NoLineTerminator(s)
    ensures ReplaceRuns(s[i..], dotAll) == CompressFrom(s, i)
    decreases |s| - i
  {
    if i < |s| {
      var j := RunEnd(s, i);
      assert dotAll || !IsLineTerminator(s[i]);
      ReplaceRunsStep(s, i, dotAll);
      ReplaceRunsCompresses(s, j, dotAll);
      CompressFromUnfold(s, i);
    }
  }

  /** At a character `.` matches, the replacement writes the maximal run there, then goes on after it. */
  lemma ReplaceRunsStep(s: string, i: nat, dotAll: bool)
    requires i < |s|
    requires dotAll || !IsLineTerminator(s[i])
    ensures var j := RunEnd(s, i);
      ReplaceRuns(s[i..], dotAll) == EncodeRun(Run(s[i], j - i)) + ReplaceRuns(s[j..], dotAll)
  {
    var t, j := s[i..], RunEnd(s, i);
    RunEndIsLeadingRun(s, i);
    assert t[0] == s[i];
    ReplaceRunsHead(t, dotAll);
    assert t[j - i..] == s[j..];
  }

  /** At a first character `.` matches, the replacement writes the leading run, then goes on after it. */
  lemma ReplaceRunsHead(t: string, dotAll: bool)
    requires |t| > 0
    requires dotAll || !IsLineTerminator(t[0])
    ensures var k := LeadingRunLength(t[0], t);
      ReplaceRuns(t, dotAll) == EncodeRun(Run(t[0], k)) + ReplaceRuns(t[k..], dotAll)
  {
    var k := LeadingRunLength(t[0], t);
    var rest := ReplaceRuns(t[k..], dotAll);
    if k >= 2 {
      assert ReplaceRuns(t, dotAll) == [t[0]] + ToDecimal(k) + rest;
    } else {
      assert ReplaceRuns(t, dotAll) == [t[0]] + rest;
      assert [t[0]] + "" == [t[0]];
    }
  }

  /** `compress_regex`: agrees with the run semantics on text without line terminators. */
  function CompressRegex(s: string): (r: string)
    ensures NoLineTerminator(s) ==> r == Compressed(s)
  {
    if NoLineTerminator(s) then
      ReplaceRunsCompresses(s, 0, false);
      assert s[0..] == s;
      ReplaceRuns(s, false)
    else ReplaceRuns(s, false)
  }

  /** The pattern with the `s` flag, `/(.)\1+/gs`: agrees with the run semantics everywhere. */
  function CompressRegexDotAll(s: string): (r: string)
    ensures r == Compressed(s)
  {
    ReplaceRunsCompresses(s, 0, true);
    assert s[0..] == s;
    ReplaceRuns(s, true)
  }

  /** A run of line terminators is left as it is: "\n\n" stays "\n\n" instead of "\n2". */
  lemma LineTerminatorRunKept()
    ensures CompressRegex("\n\n") == "\n\n"
    ensures Compressed("\n\n") == "\n2"
  {
    var s := "\n\n";
    RunEndExact(s, 0, 2);
    assert ToDecimal(2) == "2";
    assert ReplaceRuns(s[1..], false) == "\n" by {
      assert s[1..][1..] == [];
    }
  }
}

=== FILE: decimal.dfy ===
/**
 * Decimal digit strings and the natural numbers they denote: the parse that
 * `BigInt(s)` performs on a digit string and the print that `n.toString()`
 * performs on a non-negative integer.
 */
module Decimal {

  predicate IsDigit(c: char) {
    '0' <= c <= '9'
  }

  predicate IsDigits(s: string) {
    forall i :: 0 <= i < |s| ==> IsDigit(s[i])
  }

  /** A digit string as `toString` prints it: non-empty, no leading zero unless it is "0". */
  predicate IsCanonical(s: string) {
    IsDigits(s) && |s| >= 1 && (s[0] == '0' ==> |s| == 1)
  }

  /** Every character of `s` is '9'. */
  predicate AllNines(s: string) {
    forall i :: 0 <= i < |s| ==> s[i] == '9'
  }

  function DigitValue(c: char): nat
    requires IsDigit(c)
  {
    c as int - '0' as int
  }

  function DigitChar(d: nat): (c: char)
    requires d < 10
    ensures IsDigit(c) && DigitValue(c) == d
  {
    ('0' as int + d) as char
  }

  function Pow10(k: nat): (p: nat)
    ensures p >= 1
  {
    if k == 0 then 1 else 10 * Pow10(k - 1)
  }

  /**
   * The number a digit string denotes, as `BigInt(s)` reads it: leading
   * zeros are allowed and the empty string reads as 0.
   */
  function Value(s: string): (v: nat)
    requires IsDigits(s)
    ensures v < Pow10(|s|)
  {
    if s == [] then 0 else Value(s[..|s| - 1]) * 10 + DigitValue(s[|s| - 1])
  }

  /** `n.toString()`: the decimal spelling of `n`; ToDecimalSpec states what it is. */
  function ToDecimal(n: nat): string {
    if n < 10 then [DigitChar(n)] else ToDecimal(n / 10) + [DigitChar(n % 10)]
  }

  /** `toString` prints the canonical spelling, and `BigInt` reads it back as n. */
  lemma {:induction false} ToDecimalSpec(n: nat)
    ensures IsCanonical(ToDecimal(n))
    ensures Value(ToDecimal(n)) == n
    ensures n == 0 <==> ToDecimal(n) == "0"
    decreases n
  {
    if n >= 10 {
      var t := ToDecimal(n / 10);
      var s := t + [DigitChar(n % 10)];
      ToDecimalSpec(n / 10);
      DigitsConcat(t, [DigitChar(n % 10)]);
      assert s[..|s| - 1] == t;
      assert s[0] == t[0];
    }
  }

  /** 10^(a+b) = 10^a * 10^b. */
  lemma {:induction false} Pow10Add(a: nat, b: nat)
    ensures Pow10(a + b) == Pow10(a) * Pow10(b)
    decreases b
  {
    if b > 0 {
      Pow10Add(a, b - 1);
      calc {
        Pow10(a + b);
        10 * Pow10(a + b - 1);
        10 * (Pow10(a) * Pow10(b - 1));
        Pow10(a) * (10 * Pow10(b - 1));
      }
    }
  }

  /** Powers of ten grow with the exponent. */
  lemma {:induction false} Pow10Monotone(a: nat, b: nat)
    requires a <= b
    ensures Pow10(a) <= Pow10(b)
    decreases b
  {
    if a < b {
      Pow10Monotone(a, b - 1);
    }
  }

  /** Appending digits shifts the prefix left by their count: the positional law. */
  lemma {:induction false} ValueAppend(a: string, b: string)
    requires IsDigits(a) && IsDigits(b)
    ensures IsDigits(a + b)
    ensures Value(a + b) == Value(a) * Pow10(|b|) + Value(b)
    decreases |b|
  {
    var ab := a + b;
    DigitsConcat(a, b);
    if b == [] {
      assert ab == a;
    } else {
      var b' := b[..|b| - 1];
      assert ab[..|ab| - 1] == a + b';
      ValueAppend(a, b');
      assert Value(ab) == Value(a + b') * 10 + DigitValue(b[|b| - 1]);
      assert Value(b) == Value(b') * 10 + DigitValue(b[|b| - 1]);
      ShiftOneDigit(Value(a), Pow10(|b'|), Value(b'), DigitValue(b[|b| - 1]));
    }
  }

  /** A leading zero contributes nothing. */
  lemma LeadingZero(s: string)
    requires IsDigits(s)
    ensures IsDigits("0" + s) && Value("0" + s) == Value(s)
  {
    ValueAppend("0", s);
    assert "0"[..0] == [];
  }

  /** A string whose first digit is not '0' has exactly |s| significant digits. */
  lemma {:induction false} ValueLowerBound(s: string)
    requires IsDigits(s) && |s| >= 1 && s[0] != '0'
    ensures Pow10(|s| - 1) <= Value(s)
    decreases |s|
  {
    if |s| > 1 {
      var t := s[..|s| - 1];
      assert t[0] == s[0];
      ValueLowerBound(t);
    }
  }

  /** A string that starts with '0' denotes less than 10^(|s|-1). */
  lemma ValueUpperBoundLeadingZero(s: string)
    requires IsDigits(s) && |s| >= 1 && s[0] == '0'
    ensures Value(s) < Pow10(|s| - 1)
  {
    assert s == [s[0]] + s[1..];
    ValueAppend([s[0]], s[1..]);
    assert [s[0]][..0] == [];
  }

  /** Two digit strings of equal length with equal values are equal. */
  lemma {:induction false} ValueInjective(a: string, b: string)
    requires IsDigits(a) && IsDigits(b) && |a| == |b|
    requires Value(a) == Value(b)
    ensures a == b
    decreases |a|
  {
    if a != [] {
      var a', b' := a[..|a| - 1], b[..|b| - 1];
      LastDigitDecides(Value(a'), DigitValue(a[|a| - 1]), Value(b'), DigitValue(b[|b| - 1]));
      ValueInjective(a', b');
      assert a == a' + [a[|a| - 1]] && b == b' + [b[|b| - 1]];
    }
  }

  /** A number and its last decimal digit are fixed by x * 10 + d. */
  lemma LastDigitDecides(x: nat, dx: nat, y: nat, dy: nat)
    requires dx < 10 && dy < 10 && x * 10 + dx == y * 10 + dy
    ensures x == y && dx == dy
  {
  }

  /** Concatenated digit strings are digit strings. */
  lemma DigitsConcat(a: string, b: string)
    requires IsDigits(a) && IsDigits(b)
    ensures IsDigits(a + b)
  {
    var ab := a + b;
    forall i | 0 <= i < |ab|
      ensures IsDigit(ab[i])
    {
      if i < |a| { assert ab[i] == a[i]; } else { assert ab[i] == b[i - |a|]; }
    }
  }

  /** `toString` undoes `BigInt` on canonical strings: the print/parse round trip. */
  lemma {:induction false} ToDecimalValue(s: string)
    requires IsCanonical(s)
    ensures ToDecimal(Value(s)) == s
    decreases |s|
  {
    if |s| == 1 {
      assert Value(s) == DigitValue(s[0]);
    } else {
      var s' := s[..|s| - 1];
      var c := s[|s| - 1];
      assert s'[0] == s[0];
      ValueLowerBound(s');
      ToDecimalValue(s');
      DivModTen(Value(s'), DigitValue(c));
      assert DigitChar(DigitValue(c)) == c;
      assert s == s' + [c];
    }
  }

  /** Dividing x * 10 + d by ten gives back x and d. */
  lemma DivModTen(x: nat, d: nat)
    requires d < 10
    ensures (x * 10 + d) / 10 == x && (x * 10 + d) % 10 == d
  {
  }

  /** The number of digits `toString` prints is fixed by the decade `n` lies in. */
  lemma ToDecimalLength(n: nat, k: nat)
    requires k >= 1 && Pow10(k - 1) <= n < Pow10(k)
    ensures |ToDecimal(n)| == k
  {
    var s := ToDecimal(n);
    ToDecimalSpec(n);
    if |s| > k {
      Pow10Monotone(k, |s| - 1);
      ValueLowerBound(s);
    } else if |s| < k {
      Pow10Monotone(|s|, k - 1);
    }
  }

  /** A digit string is all nines exactly when it denotes 10^|s| - 1. */
  lemma {:induction false} AllNinesValue(s: string)
    requires IsDigits(s)
    ensures AllNines(s) <==> Value(s) + 1 == Pow10(|s|)
    decreases |s|
  {
    if s != [] {
      var s' := s[..|s| - 1];
      AllNinesValue(s');
      var d := DigitValue(s[|s| - 1]);
      if AllNines(s) {
        assert AllNines(s') by {
          forall i | 0 <= i < |s'| ensures s'[i] == '9' { assert s'[i] == s[i]; }
        }
      }
      if Value(s) + 1 == Pow10(|s|) {
        assert d == 9;
        assert Value(s') + 1 == Pow10(|s'|);
        assert AllNines(s) by {
          forall i | 0 <= i < |s| ensures s[i] == '9' {
            if i < |s'| { assert s[i] == s'[i]; }
          }
        }
      }
    }
  }

  /**
   * When two digit strings have equal length, the one with the smaller
   * prefix of length m is the smaller number.
   */
  lemma PrefixDecides(x: string, y: string, m: nat)
    requires IsDigits(x) && IsDigits(y) && |x| == |y| && m <= |x|
    requires IsDigits(x[..m]) && IsDigits(y[..m])
    requires Value(x[..m]) < Value(y[..m])
    ensures Value(x) < Value(y)
  {
    var p := Pow10(|x| - m);
    assert x == x[..m] + x[m..] && y == y[..m] + y[m..];
    assert IsDigits(x[m..]) && IsDigits(y[m..]);
    ValueAppend(x[..m], x[m..]);
    ValueAppend(y[..m], y[m..]);
    SmallerPrefix(Value(x[..m]), Value(x[m..]), Value(y[..m]), Value(y[m..]), p);
  }

  /** vx*p + rx < vy*p + ry whenever vx < vy and the remainders are below p. */
  lemma SmallerPrefix(vx: nat, rx: nat, vy: nat, ry: nat, p: nat)
    requires vx < vy && rx < p
    ensures vx * p + rx < vy * p + ry
  {
    assert (vx + 1) * p == vx * p + p;
    MulMonotone(vx + 1, vy, p);
  }

  /** Multiplying by the same p preserves <=. */
  lemma MulMonotone(a: nat, b: nat, p: nat)
    requires a <= b
    ensures a * p <= b * p
  {
    assert b * p == a * p + (b - a) * p;
  }

  /** Appending one digit c to a * p + v: the step of the positional law. */
  lemma ShiftOneDigit(a: nat, p: nat, v: nat, c: nat)
    ensures (a * p + v) * 10 + c == a * (10 * p) + (v * 10 + c)
  {
  }
}

=== FILE: helpers.dfy ===
/**
 * The small string helpers the palindrome generator is built from:
 * `reverseString`, `shaveLast`, `_even`/`_odd`, `isPalindrome`, and the
 * ordering JavaScript's `<` and `>=` put on strings.
 */
module Helpers {
  import opened Decimal

  /** `reverseString`: the characters of `s` in the opposite order. */
  function Reverse<T>(s: seq<T>): (r: seq<T>)
    ensures |r| == |s|
    ensures forall i, j :: 0 <= i < |s| && i + j == |s| - 1 ==> r[i] == s[j]
  {
    if s == [] then []
    else
      var r := Reverse(s[1..]) + [s[0]];
      assert forall i :: 0 <= i < |s| - 1 ==> r[i] == s[1..][|s| - 2 - i];
      r
  }

  /** `shaveLast`: drops the final character; `substring(0, -1)` of "" is "". */
  function ShaveLast(s: string): (r: string)
    ensures |s| == 0 ==> r == []
    ensures |s| > 0 ==> r + [s[|s| - 1]] == s
  {
    if |s| == 0 then [] else s[..|s| - 1]
  }

  /** `_even`: n is twice its half. */
  predicate IsEven(n: nat): (r: bool)
    ensures r <==> n == 2 * (n / 2)
  {
    n % 2 == 0
  }

  /** `_odd`: n is one more than twice its half. */
  predicate IsOdd(n: nat): (r: bool)
    ensures r <==> n == 2 * (n / 2) + 1
  {
    !IsEven(n)
  }

  /** `isPalindrome`: the decimal spelling of `num` reads the same backwards. */
  predicate IsPalindrome(num: nat) {
    IsPalindromic(ToDecimal(num))
  }

  /** A string equals its reverse. */
  predicate IsPalindromic(s: string) {
    s == Reverse(s)
  }

  /** Each character equals its mirror image about the centre. */
  predicate IsSymmetric(d: string) {
    forall i, j :: 0 <= i < |d| && i + j == |d| - 1 ==> d[i] == d[j]
  }

  /**
   * JavaScript's `a < b` on strings: the first differing character decides,
   * and a proper prefix comes first.
   */
  predicate LexLess(a: string, b: string) {
    if |b| == 0 then false
    else if |a| == 0 then true
    else if a[0] != b[0] then a[0] < b[0]
    else LexLess(a[1..], b[1..])
  }

  /**
   * `a < b` holds exactly when a is a proper prefix of b, or when at the
   * first position where they differ a holds the smaller character.
   */
  lemma {:induction false} LexLessIffFirstDifference(a: string, b: string)
    ensures LexLess(a, b) <==> IsProperPrefix(a, b) || exists i :: FirstDifferenceAt(a, b, i) && a[i] < b[i]
    decreases |a|
  {
    if |b| == 0 {
    } else if |a| == 0 {
      assert IsProperPrefix(a, b);
    } else if a[0] != b[0] {
      assert FirstDifferenceAt(a, b, 0);
      assert !IsProperPrefix(a, b) by {
        if |a| < |b| {
          assert b[..|a|][0] == b[0];
        }
      }
      FirstDifferenceUnique(a, b, 0);
    } else {
      LexLessShift(a, b);
      LexLessIffFirstDifference(a[1..], b[1..]);
    }
  }

  /** a is a strict prefix of b. */
  predicate IsProperPrefix(a: string, b: string) {
    |a| < |b| && a == b[..|a|]
  }

  /** Position i is the first at which a and b hold different characters. */
  predicate FirstDifferenceAt(a: string, b: string, i: int) {
    0 <= i < |a| && i < |b| && a[..i] == b[..i] && a[i] != b[i]
  }

  /** Two strings differ first at one position at most. */
  lemma FirstDifferenceUnique(a: string, b: string, i: nat)
    requires FirstDifferenceAt(a, b, i)
    ensures forall j :: FirstDifferenceAt(a, b, j) ==> j == i
  {
  }

  /** Dropping a shared first character shifts the first difference down by one and keeps the prefix relation. */
  lemma LexLessShift(a: string, b: string)
    requires |a| > 0 && |b| > 0 && a[0] == b[0]
    ensures IsProperPrefix(a, b) <==> IsProperPrefix(a[1..], b[1..])
    ensures (exists i :: FirstDifferenceAt(a, b, i) && a[i] < b[i]) <==>
            (exists i :: FirstDifferenceAt(a[1..], b[1..], i) && a[1..][i] < b[1..][i])
  {
    var a', b' := a[1..], b[1..];
    if IsProperPrefix(a', b') {
      assert a == [a[0]] + a' && b[..|a|] == [b[0]] + b'[..|a'|];
    }
    if IsProperPrefix(a, b) {
      assert a' == a[..|a|][1..] && b'[..|a'|] == b[..|a|][1..];
    }
    forall i | FirstDifferenceAt(a, b, i) && a[i] < b[i]
      ensures FirstDifferenceAt(a', b', i - 1) && a'[i - 1] < b'[i - 1]
    {
      assert i != 0;
      assert a'[..i - 1] == a[..i][1..] && b'[..i - 1] == b[..i][1..];
    }
    forall i | FirstDifferenceAt(a', b', i) && a'[i] < b'[i]
      ensures FirstDifferenceAt(a, b, i + 1) && a[i + 1] < b[i + 1]
    {
      assert a[..i + 1] == [a[0]] + a'[..i] && b[..i + 1] == [b[0]] + b'[..i];
    }
  }

  /** Reversing twice gives back the string. */
  lemma ReverseInvolution<T>(s: seq<T>)
    ensures Reverse(Reverse(s)) == s
  {
    var r, rr := Reverse(s), Reverse(Reverse(s));
    forall i | 0 <= i < |s| ensures rr[i] == s[i] {
      assert rr[i] == r[|s| - 1 - i] == s[i];
    }
  }

  /** The reverse of a concatenation is the reversed parts in swapped order. */
  lemma ReverseConcat<T>(a: seq<T>, b: seq<T>)
    ensures Reverse(a + b) == Reverse(b) + Reverse(a)
  {
    assert |Reverse(a + b)| == |Reverse(b) + Reverse(a)|;
    forall i | 0 <= i < |a + b|
      ensures Reverse(a + b)[i] == (Reverse(b) + Reverse(a))[i]
    {
      if i < |b| {
        assert Reverse(a + b)[i] == (a + b)[|a| + |b| - 1 - i] == b[|b| - 1 - i];
      } else {
        assert Reverse(a + b)[i] == (a + b)[|a| + |b| - 1 - i] == a[|a| - 1 - (i - |b|)];
      }
    }
  }

  /** Reversing digits gives digits. */
  lemma ReverseDigits(s: string)
    requires IsDigits(s)
    ensures IsDigits(Reverse(s))
  {
    var r := Reverse(s);
    forall i | 0 <= i < |r| ensures IsDigit(r[i]) {
      assert r[i] == s[|s| - 1 - i];
    }
  }

  /** Reversing nines gives nines. */
  lemma ReverseAllNines(s: string)
    requires AllNines(s)
    ensures AllNines(Reverse(s))
  {
    var r := Reverse(s);
    forall i | 0 <= i < |r| ensures r[i] == '9' {
      assert r[i] == s[|s| - 1 - i];
    }
  }

  /** `isPalindrome` holds exactly when the decimal spelling is symmetric about its centre. */
  lemma PalindromeIffSymmetric(num: nat)
    ensures IsPalindrome(num) <==> IsSymmetric(ToDecimal(num))
  {
    PalindromicIffSymmetric(ToDecimal(num));
  }

  /** A string equals its reverse exactly when it is symmetric about its centre. */
  lemma PalindromicIffSymmetric(d: string)
    ensures IsPalindromic(d) <==> IsSymmetric(d)
  {
    var r := Reverse(d);
    if IsSymmetric(d) {
      forall i | 0 <= i < |d| ensures r[i] == d[i] {
        assert r[i] == d[|d| - 1 - i];
      }
      assert d == r;
    } else {
      var i, j :| 0 <= i < |d| && i + j == |d| - 1 && d[i] != d[j];
      assert r[i] == d[j];
    }
  }

  /**
   * On digit strings of equal length, the string order JavaScript uses
   * coincides with the order of the numbers they denote.
   */
  lemma {:induction false} LexLessIffValueLess(a: string, b: string)
    requires IsDigits(a) && IsDigits(b) && |a| == |b|
    ensures LexLess(a, b) <==> Value(a) < Value(b)
    decreases |a|
  {
    if |a| > 0 {
      var a', b' := a[1..], b[1..];
      assert a == [a[0]] + a' && b == [b[0]] + b';
      ValueAppend([a[0]], a');
      ValueAppend([b[0]], b');
      assert [a[0]][..0] == [] && [b[0]][..0] == [];
      assert Value([a[0]]) == DigitValue(a[0]) && Value([b[0]]) == DigitValue(b[0]);
      if a[0] < b[0] {
        PrefixDecides(a, b, 1);
      } else if b[0] < a[0] {
        PrefixDecides(b, a, 1);
      } else {
        LexLessIffValueLess(a', b');
      }
    }
  }
}

=== FILE: palindrome_api.dfy ===
/**
 * `nextPalindrome`: the public entry point. It validates its argument,
 * prints it in decimal, pads an all-nines spelling with a leading "0" so
 * that the carry can widen the result, and hands the digits to the core.
 */
module PalindromeApi {
  import opened Results
  import opened Decimal
  import opened Helpers
  import opened PalindromeCore

  /** `Number.MAX_SAFE_INTEGER`, 2^53 - 1. */
  const MaxSafeInteger: int := 9007199254740991

  /** The kinds of argument the wrapper tells apart. */
  datatype Input =
    | Number(n: int)          // a JS number holding an integer
    | BigInt(n: int)          // a JS bigint
    | Str(s: string)          // a JS string
    | ArrayOf(items: seq<int>) // a JS array

  /** Strings are spelled with decimal digits only. */
  predicate WellFormed(x: Input) {
    x.Str? ==> IsDigits(x.s)
  }

  /** The number `num <= 0` compares with zero; strings are read in decimal. */
  function Magnitude(x: Input): (v: int)
    requires WellFormed(x) && !x.ArrayOf?
    ensures x.Str? ==> v >= 0
  {
    match x
    case Number(n) => n
    case BigInt(n) => n
    case Str(s) => Value(s)
  }

  /** `num.toString()`, for an argument that passed the sign check. */
  function Spell(x: Input): (s: string)
    requires WellFormed(x) && !x.ArrayOf? && Magnitude(x) >= 0
    ensures IsDigits(s) && Value(s) == Magnitude(x)
    ensures !x.Str? ==> IsCanonical(s)
  {
    if x.Str? then x.s
    else
      ToDecimalSpec(Magnitude(x));
      ToDecimal(Magnitude(x))
  }

  /** The argument is spelled as `toString` would print its value. */
  predicate HasCanonicalSpelling(x: Input) {
    x.Str? ==> IsCanonical(x.s)
  }

  /** The `/^9+$/` test and the "0" it prepends; the value is unchanged. */
  function PadAllNines(s: string): (t: string)
    requires IsDigits(s)
    ensures IsDigits(t) && Value(t) == Value(s)
    ensures IsCanonical(s) && Value(s) > 0 ==> KeepsWidthOnIncrement(t)
  {
    if |s| >= 1 && AllNines(s) then
      LeadingZero(s);
      AllNinesValue(s);
      "0" + s
    else
      if IsCanonical(s) && Value(s) > 0 then
        AllNinesValue(s);
        ValueLowerBound(s);
        s
      else
        s
  }

  /**
   * `nextPalindrome(num)` as written: the three checks in source order,
   * then the core on the (padded) spelling of the argument.
   */
  function NextPalindrome(x: Input): (r: Result<nat, JsError>)
    requires WellFormed(x)
    ensures r == Err(RangeError(UnsafeNumber)) <==> x.Number? && x.n > MaxSafeInteger
    ensures r == Err(TypeError) <==> x.ArrayOf?
    ensures r == Err(RangeError(NotPositive)) <==>
      !x.ArrayOf? && !(x.Number? && x.n > MaxSafeInteger) && Magnitude(x) <= 0
    ensures r.Ok? <==> !x.ArrayOf? && !(x.Number? && x.n > MaxSafeInteger) && Magnitude(x) > 0
  {
    if x.Number? && x.n > MaxSafeInteger then Err(RangeError(UnsafeNumber))
    else if x.ArrayOf? then Err(TypeError)
    else if Magnitude(x) <= 0 then Err(RangeError(NotPositive))
    else Ok(NextPalindromeCore(PadAllNines(Spell(x))))
  }

  /**
   * Whenever the argument is spelled canonically (every number and bigint,
   * and strings without leading zeros), a successful call returns the least
   * palindrome strictly greater than the argument.
   */
  lemma NextPalindromeCorrect(x: Input)
    requires WellFormed(x) && HasCanonicalSpelling(x)
    ensures var r := NextPalindrome(x);
      r.Ok? ==> IsNextPalindromeOf(Magnitude(x), r.value)
  {
    if NextPalindrome(x).Ok? {
      CoreIsNextPalindrome(PadAllNines(Spell(x)));
    }
  }

  /**
   * A string with a leading zero is not re-spelled, so the halves the core
   * compares are misaligned: "0123" yields 22, which is below 123.
   */
  lemma LeadingZeroCounterexample()
    ensures WellFormed(Str("0123")) && Magnitude(Str("0123")) == 123
    ensures NextPalindrome(Str("0123")) == Ok(22)
    ensures !IsNextPalindromeOf(123, 22)
  {
    var d := "0123";
    ValueOf0123();
    assert PadAllNines(d) == d by { assert !AllNines(d); }
    CoreOn0123();
  }

  /** "0123" reads as 123. */
  lemma ValueOf0123()
    ensures IsDigits("0123") && Value("0123") == 123
  {
    assert Value("0") == 0;
    assert Value("01") == 1 by { assert "01"[..1] == "0"; }
    assert Value("012") == 12 by { assert "012"[..2] == "01"; }
    assert "0123"[..3] == "012";
  }

  /** The core maps "0123" to 22. */
  lemma CoreOn0123()
    ensures IsDigits("0123") && NextPalindromeCore("0123") == 22
  {
    DigitsOn0123();
  }

  /** The core spells the palindrome it finds for "0123" as "22". */
  lemma DigitsOn0123()
    ensures IsDigits("0123") && NextPalindromeDigits("0123") == "22" && Value("22") == 22
  {
    IncrementOn0123();
    DigitsWhenBumped("0123");
    BumpedOn01();
  }

  /** "23" >= "10", so "0123" takes the increment branch with basis "01". */
  lemma IncrementOn0123()
    ensures Split("0123") == Parts("01", [], "23") && TakesIncrement(Split("0123"))
  {
    var p := Split("0123");
    assert p.left == "01" && p.middle == [] && p.right == "23";
    assert Reverse(p.left) == "10" by {
      assert Reverse("01") == Reverse("1") + ['0'];
    }
  }

  /** 1 + 1 printed is "2", mirrored to "22", which reads as 22. */
  lemma BumpedOn01()
    ensures BumpedPalindrome("01", false) == "22" && Value("22") == 22
  {
    assert Value("22") == 22 by { assert "22"[..1] == "2"; }
    assert Value("01") == 1 by { assert "01"[..1] == "0"; }
    assert ToDecimal(2) == "2";
    assert Reverse("2") == "2";
  }

  /**
   * The corrected wrapper: the core is given the canonical spelling of the
   * argument's value, so the result is right for every argument.
   */
  function NextPalindromeCanonical(x: Input): (r: Result<nat, JsError>)
    requires WellFormed(x)
    ensures r.Err? <==> NextPalindrome(x).Err?
    ensures r.Err? ==> r == NextPalindrome(x)
    ensures r.Ok? ==> IsNextPalindromeOf(Magnitude(x), r.value)
  {
    if x.Number? && x.n > MaxSafeInteger then Err(RangeError(UnsafeNumber))
    else if x.ArrayOf? then Err(TypeError)
    else if Magnitude(x) <= 0 then Err(RangeError(NotPositive))
    else
      ToDecimalSpec(Magnitude(x));
      var t := PadAllNines(ToDecimal(Magnitude(x)));
      CoreIsNextPalindrome(t);
      Ok(NextPalindromeCore(t))
  }

  /** On canonically spelled arguments the corrected wrapper changes nothing. */
  lemma CanonicalAgrees(x: Input)
    requires WellFormed(x) && HasCanonicalSpelling(x)
    ensures NextPalindromeCanonical(x) == NextPalindrome(x)
  {
    if NextPalindrome(x).Ok? {
      ToDecimalValue(Spell(x));
    }
  }

  /** Padding k nines gives "0" + k nines, whose right half is never below the reversed left. */
  lemma PaddedNinesTakeIncrement(s: string)
    requires AllNines(s) && |s| >= 1
    ensures IsDigits("0" + s) && TakesIncrement(Split("0" + s))
  {
    var t := "0" + s;
    var p := Split(t);
    assert IsDigits(s);
    LeadingZero(s);
    assert AllNines(p.right) by {
      forall i | 0 <= i < |p.right| ensures p.right[i] == '9' {
        assert p.right[i] == t[|t| - |p.right| + i];
      }
    }
    assert IsDigits(p.left) && IsDigits(p.right) by {
      SplitAsSlices(t);
    }
    AllNinesValue(p.right);
    ReverseDigits(p.left);
    LexLessIffValueLess(p.right, Reverse(p.left));
  }

  /** `n` zero digits. */
  function Zeros(n: nat): (z: string)
    ensures |z| == n && IsDigits(z)
    ensures forall i :: 0 <= i < n ==> z[i] == '0'
  {
    seq(n, _ => '0')
  }

  /** Zeros read as 0. */
  lemma {:induction false} ValueZeros(n: nat)
    ensures Value(Zeros(n)) == 0
  {
    if n > 0 {
      assert Zeros(n)[..n - 1] == Zeros(n - 1);
      ValueZeros(n - 1);
    }
  }

  /** "1", k - 1 zeros, "1". */
  function OneZerosOne(k: nat): (w: string)
    requires k >= 1
    ensures |w| == k + 1 && IsCanonical(w)
  {
    "1" + Zeros(k - 1) + "1"
  }

  /** "1", k - 1 zeros, "1" reads as 10^k + 1. */
  lemma OneZerosOneValue(k: nat)
    requires k >= 1
    ensures Value(OneZerosOne(k)) == Pow10(k) + 1
  {
    var a := "1" + Zeros(k - 1);
    OneZerosValue(k);
    AppendOneValue(k, a);
    assert OneZerosOne(k) == a + "1";
  }

  /** "1" followed by k - 1 zeros is 10^(k-1). */
  lemma OneZerosValue(k: nat)
    requires k >= 1
    ensures IsDigits("1" + Zeros(k - 1)) && Value("1" + Zeros(k - 1)) == Pow10(k - 1)
  {
    assert Value("1") == 1;
    ValueAppend("1", Zeros(k - 1));
    ValueZeros(k - 1);
  }

  /** Appending the digit 1 to a spelling of 10^(k-1) gives 10^k + 1. */
  lemma AppendOneValue(k: nat, a: string)
    requires k >= 1 && IsDigits(a) && |a| == k && Value(a) == Pow10(k - 1)
    ensures IsDigits(a + "1") && Value(a + "1") == Pow10(k) + 1
  {
    ValueAppend(a, "1");
    assert Pow10(1) == 10;
  }

  /** "1", zeros, "1" reads the same backwards. */
  lemma OneZerosOnePalindromic(k: nat)
    requires k >= 1
    ensures IsPalindromic(OneZerosOne(k))
  {
    var w := OneZerosOne(k);
    assert forall i :: 0 <= i <= k ==> w[i] == (if i == 0 || i == k then '1' else '0');
    assert IsSymmetric(w);
    PalindromicIffSymmetric(w);
  }

  /** 10^k + 1 is spelled "1", k - 1 zeros, "1": a palindrome. */
  lemma PowerPlusOnePalindrome(k: nat)
    requires k >= 1
    ensures IsPalindrome(Pow10(k) + 1)
  {
    OneZerosOneValue(k);
    OneZerosOnePalindromic(k);
    ToDecimalValue(OneZerosOne(k));
  }

  /** A multiple of ten from 10 on is printed with a final '0'. */
  lemma LastDigitZero(n: nat)
    requires n >= 10 && n % 10 == 0
    ensures ToDecimal(n)[|ToDecimal(n)| - 1] == '0'
  {
  }

  /** A string whose first and last characters differ is not a palindrome. */
  lemma EndsDiffer(t: string)
    requires |t| >= 1 && t[0] != t[|t| - 1]
    ensures !IsPalindromic(t)
  {
    assert Reverse(t)[0] == t[|t| - 1];
  }

  /** A multiple of ten leaves no remainder modulo ten. */
  lemma TenTimesMod(x: nat)
    ensures (10 * x) % 10 == 0
  {
  }

  /** 10^k, for k >= 1, starts with 1 and ends with 0: not a palindrome. */
  lemma PowerNotPalindrome(k: nat)
    requires k >= 1
    ensures !IsPalindrome(Pow10(k))
  {
    var n := Pow10(k);
    TenTimesMod(Pow10(k - 1));
    Pow10Monotone(1, k);
    LastDigitZero(n);
    ToDecimalSpec(n);
    EndsDiffer(ToDecimal(n));
  }

  /**
   * An argument whose value is k nines (9, 99, 999, ... as a number, a
   * bigint or a string) is padded to "0" followed by the nines, and the
   * carry widens the result to 10^k + 1: 9 -> 11, 99 -> 101, 999 -> 1001.
   * Only a number above MAX_SAFE_INTEGER is refused.
   */
  lemma AllNinesNext(x: Input, k: nat)
    requires WellFormed(x) && HasCanonicalSpelling(x) && !x.ArrayOf?
    requires k >= 1 && Magnitude(x) == Pow10(k) - 1
    ensures x.Number? && x.n > MaxSafeInteger ==> NextPalindrome(x) == Err(RangeError(UnsafeNumber))
    ensures !(x.Number? && x.n > MaxSafeInteger) ==> NextPalindrome(x) == Ok(Pow10(k) + 1)
  {
    if !(x.Number? && x.n > MaxSafeInteger) {
      SafeNinesNext(x, k);
    }
  }

  /** The successful case: the result is 10^k + 1. */
  lemma SafeNinesNext(x: Input, k: nat)
    requires WellFormed(x) && HasCanonicalSpelling(x) && !x.ArrayOf?
    requires !(x.Number? && x.n > MaxSafeInteger)
    requires k >= 1 && Magnitude(x) == Pow10(k) - 1
    ensures NextPalindrome(x) == Ok(Pow10(k) + 1)
  {
    NinesNextIsPowerPlusOne(k);
    NextPalindromeIs(x, Pow10(k) - 1, Pow10(k) + 1);
  }

  /**
   * Where the least palindrome above a canonically spelled, positive and
   * safe argument is v, `nextPalindrome` returns v.
   */
  lemma NextPalindromeIs(x: Input, n: nat, v: nat)
    requires WellFormed(x) && HasCanonicalSpelling(x) && !x.ArrayOf?
    requires !(x.Number? && x.n > MaxSafeInteger) && Magnitude(x) == n > 0
    requires IsNextPalindromeOf(n, v)
    ensures NextPalindrome(x) == Ok(v)
  {
    NextPalindromeCorrect(x);
    NextPalindromeUnique(n, v, NextPalindrome(x).value);
  }

  /** The least palindrome above 10^k - 1 is 10^k + 1, because 10^k itself is not one. */
  lemma NinesNextIsPowerPlusOne(k: nat)
    requires k >= 1
    ensures Pow10(k) - 1 > 0
    ensures IsNextPalindromeOf(Pow10(k) - 1, Pow10(k) + 1)
  {
    Pow10Monotone(1, k);
    PowerPlusOnePalindrome(k);
    PowerNotPalindrome(k);
    forall q | Pow10(k) - 1 < q < Pow10(k) + 1
      ensures !IsPalindrome(q)
    {
      assert q == Pow10(k);
    }
  }
}

=== FILE: palindrome_core.dfy ===
/**
 * `_nextPalindrome`: given the decimal digits of n, the least palindrome
 * greater than n, built by mirroring the left half (plus middle digit) onto
 * the right half and bumping that basis by one when mirroring alone would
 * not exceed n.
 */
module PalindromeCore {
  import opened Decimal
  import opened Helpers

  /** The cut `left | middle | right` of a digit string around its pivot. */
  datatype Parts = Parts(left: string, middle: string, right: string)

  /**
   * The cut at index |d|/2: `middle` holds the central digit of an
   * odd-length string and nothing otherwise.
   */
  function Split(d: string): (p: Parts)
    ensures p.left + p.middle + p.right == d
    ensures |p.left| == |p.right| == |d| / 2
    ensures |p.middle| == |d| % 2
    ensures |p.middle| == 1 <==> IsOdd(|d|)
  {
    var isOdd := IsOdd(|d|);
    var pivot := |d| / 2;
    var middle := if isOdd then [d[pivot]] else [];
    var right := d[pivot + (if isOdd then 1 else 0)..];
    assert d == d[..pivot] + middle + right;
    Parts(d[..pivot], middle, right)
  }

  /** The branch condition `right >= rightReplacement` (JavaScript string order). */
  predicate TakesIncrement(p: Parts) {
    !LexLess(p.right, Reverse(p.left))
  }

  /**
   * The digits `_nextPalindrome(asString)` hands to `BigInt`: the basis
   * `left + middle` followed by the reversed left half, or, when that would
   * not exceed the input, the incremented basis followed by its own
   * reversed left half.
   */
  function NextPalindromeDigits(d: string): (r: string)
    requires IsDigits(d)
    ensures IsDigits(r)
  {
    var p := Split(d);
    var basis := p.left + p.middle;
    assert basis == d[..|basis|];
    if TakesIncrement(p) then
      BumpedPalindrome(basis, IsOdd(|d|))
    else
      assert p.left == basis[..|p.left|];
      MirrorDigits(basis, |p.left|);
      basis + Reverse(p.left)
  }

  /**
   * The increment branch: `BigInt(left + middle) + 1` printed, followed by
   * its reverse, less its last digit when the input has odd length.
   */
  function BumpedPalindrome(basis: string, isOdd: bool): (r: string)
    requires IsDigits(basis)
    ensures IsDigits(r)
  {
    var bumped := ToDecimal(Value(basis) + 1);
    ToDecimalSpec(Value(basis) + 1);
    var rightReplacement := Reverse(if isOdd then ShaveLast(bumped) else bumped);
    BumpedMirrorDigits(bumped, isOdd);
    bumped + rightReplacement
  }

  /** The increment branch writes decimal digits only. */
  lemma BumpedMirrorDigits(bumped: string, isOdd: bool)
    requires IsDigits(bumped)
    ensures IsDigits(bumped + Reverse(if isOdd then ShaveLast(bumped) else bumped))
  {
    var kept := if isOdd then ShaveLast(bumped) else bumped;
    assert IsDigits(kept) by {
      if isOdd && |bumped| > 0 {
        assert kept == bumped[..|bumped| - 1];
      }
    }
    ReverseDigits(kept);
    DigitsConcat(bumped, Reverse(kept));
  }

  /**
   * `_nextPalindrome(asString)`: those digits read as a number. On every
   * input whose successor keeps its width it is the least palindrome
   * strictly greater than the input.
   */
  function NextPalindromeCore(d: string): (r: nat)
    requires IsDigits(d)
    ensures KeepsWidthOnIncrement(d) ==> IsNextPalindromeOf(Value(d), r)
  {
    var r := Value(NextPalindromeDigits(d));
    assert KeepsWidthOnIncrement(d) ==> IsNextPalindromeOf(Value(d), r) by {
      if KeepsWidthOnIncrement(d) {
        CoreIsNextPalindrome(d);
      }
    }
    r
  }

  /** `b` followed by the reverse of its first h characters. */
  function Mirror(b: string, h: nat): (m: string)
    requires h <= |b|
    ensures |m| == |b| + h && m[..|b|] == b
  {
    b + Reverse(b[..h])
  }

  /** The successor of `d` has as many digits as `d`: the inputs the core is correct on. */
  ghost predicate KeepsWidthOnIncrement(d: string) {
    IsDigits(d) && |d| >= 1 && Pow10(|d| - 1) <= Value(d) + 1 < Pow10(|d|)
  }

  /** r is the least palindrome strictly greater than n. */
  ghost predicate IsNextPalindromeOf(n: nat, r: nat) {
    n < r && IsPalindrome(r) && forall q :: n < q < r ==> !IsPalindrome(q)
  }

  /** The least palindrome above n is unique. */
  lemma NextPalindromeUnique(n: nat, r1: nat, r2: nat)
    requires IsNextPalindromeOf(n, r1) && IsNextPalindromeOf(n, r2)
    ensures r1 == r2
  {
  }

  /** A length n splits into halves h = n / 2 and m = n - h, with m one more than h when n is odd. */
  lemma Halves(n: nat)
    ensures n / 2 <= n - n / 2 == n / 2 + n % 2 <= n / 2 + 1
    ensures n >= 1 ==> n - n / 2 >= 1
  {
  }

  /** The basis `left + middle` is the first ceil(L/2) digits, and `right` the rest. */
  lemma SplitAsSlices(d: string)
    ensures Split(d).left + Split(d).middle == d[..|d| - |d| / 2]
    ensures Split(d).right == d[|d| - |d| / 2..]
    ensures Split(d).left == d[..|d| / 2]
  {
    var p := Split(d);
    var m := |d| - |d| / 2;
    assert (p.left + p.middle) + p.right == d;
    assert p.left + p.middle == d[..m];
  }

  /** Mirroring digits gives digits. */
  lemma MirrorDigits(b: string, h: nat)
    requires IsDigits(b) && h <= |b|
    ensures IsDigits(Mirror(b, h))
  {
    ReverseDigits(b[..h]);
    DigitsConcat(b, Reverse(b[..h]));
  }

  /** Mirroring a basis of length h or h+1 always yields a palindromic string. */
  lemma MirrorPalindromic(b: string, h: nat)
    requires h <= |b| <= h + 1
    ensures IsPalindromic(Mirror(b, h))
  {
    var mb := Mirror(b, h);
    var rb := Reverse(b[..h]);
    assert mb == b + rb;
    forall i, j | 0 <= i < |mb| && i + j == |mb| - 1
      ensures mb[i] == mb[j]
    {
      if i < h {
        assert mb[j] == rb[j - |b|] == b[..h][i];
      } else if i < |b| {
        assert i == j;
      } else {
        assert mb[i] == rb[i - |b|] == b[..h][j];
      }
    }
    PalindromicIffSymmetric(mb);
  }

  /** A palindromic string is the mirror of its first ceil(L/2) characters. */
  lemma PalindromicIsMirror(q: string)
    requires IsPalindromic(q)
    ensures q == Mirror(q[..|q| - |q| / 2], |q| / 2)
  {
    var h := |q| / 2;
    var m := |q| - h;
    var mq := Mirror(q[..m], h);
    var rb := Reverse(q[..m][..h]);
    PalindromicIffSymmetric(q);
    forall i | m <= i < |q|
      ensures q[i] == mq[i]
    {
      var j := |q| - 1 - i;
      assert mq[i] == rb[i - m] == q[..m][..h][j] == q[j];
    }
    assert q == mq;
  }

  /** A palindrome is the value of the mirror of its own basis. */
  lemma PalindromeBasis(q: nat) returns (bq: string)
    requires IsPalindrome(q)
    ensures var qs := ToDecimal(q);
      IsDigits(bq) && |bq| == |qs| - |qs| / 2 &&
      IsDigits(Mirror(bq, |qs| / 2)) && q == Value(Mirror(bq, |qs| / 2))
  {
    var qs := ToDecimal(q);
    ToDecimalSpec(q);
    bq := qs[..|qs| - |qs| / 2];
    PalindromicIsMirror(qs);
  }

  /** Between two mirrors of the same width, the larger basis gives the larger number. */
  lemma MirrorMonotone(x: string, c: string, h: nat)
    requires IsDigits(x) && IsDigits(c) && |x| == |c| && h <= |c|
    requires Value(x) < Value(c)
    ensures IsDigits(Mirror(x, h)) && IsDigits(Mirror(c, h))
    ensures Value(Mirror(x, h)) < Value(Mirror(c, h))
  {
    MirrorDigits(x, h);
    MirrorDigits(c, h);
    assert Mirror(x, h)[..|x|] == x && Mirror(c, h)[..|c|] == c;
    PrefixDecides(Mirror(x, h), Mirror(c, h), |x|);
  }

  /** Comparing `right` with `reverse(left)` decides whether the plain mirror exceeds n. */
  lemma MirrorExceedsIff(d: string)
    requires IsDigits(d)
    ensures var h, m := |d| / 2, |d| - |d| / 2;
      IsDigits(d[..m]) && IsDigits(Mirror(d[..m], h)) &&
      (Value(d) < Value(Mirror(d[..m], h)) <==> !TakesIncrement(Split(d)))
  {
    var h, m := |d| / 2, |d| - |d| / 2;
    var p := Split(d);
    SplitAsSlices(d);
    var b := d[..m];
    assert b[..h] == p.left;
    assert d == b + p.right;
    ReverseDigits(p.left);
    ValueAppend(b, p.right);
    ValueAppend(b, Reverse(p.left));
    LexLessIffValueLess(p.right, Reverse(p.left));
  }

  /** A positive factor can be cancelled from both sides of <=. */
  lemma MulCancel(a: nat, b: nat, p: nat)
    requires p > 0 && a * p <= b * p
    ensures a <= b
  {
    if a > b {
      MulMonotone(b + 1, a, p);
    }
  }

  /** n = basis * 10^h + right, where the basis is the first ceil(L/2) digits. */
  lemma BasisDecomposition(d: string)
    requires IsDigits(d)
    ensures var h, m := |d| / 2, |d| - |d| / 2;
      IsDigits(d[..m]) && IsDigits(d[m..]) && |d[m..]| == h &&
      Value(d) == Value(d[..m]) * Pow10(h) + Value(d[m..])
  {
    var m := |d| - |d| / 2;
    assert d == d[..m] + d[m..];
    ValueAppend(d[..m], d[m..]);
  }

  /** The basis plus one reaches the basis width: it has at least ceil(L/2) digits. */
  lemma BumpedBasisLowerBound(d: string)
    requires KeepsWidthOnIncrement(d)
    ensures var m := |d| - |d| / 2;
      IsDigits(d[..m]) && Pow10(m - 1) <= Value(d[..m]) + 1
  {
    var h, m := |d| / 2, |d| - |d| / 2;
    BasisDecomposition(d);
    Pow10Add(m - 1, h);
    assert m - 1 + h == |d| - 1;
    PrefixLowerBound(Value(d[..m]), Value(d[m..]), Pow10(h), Pow10(m - 1));
  }

  /** From p*ph <= vb*ph + vr + 1 with vr < ph it follows that p <= vb + 1. */
  lemma PrefixLowerBound(vb: nat, vr: nat, ph: nat, p: nat)
    requires vr < ph && p * ph <= vb * ph + vr + 1
    ensures p <= vb + 1
  {
    assert vb * ph + ph == (vb + 1) * ph;
    MulCancel(p, vb + 1, ph);
  }

  /** The mirror of nines is nines. */
  lemma MirrorAllNines(b: string, h: nat)
    requires AllNines(b) && h <= |b|
    ensures AllNines(Mirror(b, h))
  {
    ReverseAllNines(b[..h]);
  }

  /** When the plain mirror does not exceed n, the basis is not all nines, else n would be. */
  lemma BumpedBasisUpperBound(d: string)
    requires KeepsWidthOnIncrement(d)
    requires var h, m := |d| / 2, |d| - |d| / 2;
      IsDigits(d[..m]) && IsDigits(Mirror(d[..m], h)) && Value(Mirror(d[..m], h)) <= Value(d)
    ensures var m := |d| - |d| / 2;
      Value(d[..m]) + 1 < Pow10(m)
  {
    var h, m := |d| / 2, |d| - |d| / 2;
    var b := d[..m];
    assert |Mirror(b, h)| == |d|;
    if Value(b) + 1 == Pow10(m) {
      AllNinesValue(b);
      MirrorAllNines(b, h);
      AllNinesValue(Mirror(b, h));
      assert false;
    }
  }

  /** When the plain mirror does not exceed n, the bumped basis prints with exactly ceil(L/2) digits: no carry widens it. */
  lemma BumpedBasisWidth(d: string)
    requires KeepsWidthOnIncrement(d)
    requires var h, m := |d| / 2, |d| - |d| / 2;
      IsDigits(d[..m]) && IsDigits(Mirror(d[..m], h)) && Value(Mirror(d[..m], h)) <= Value(d)
    ensures var m := |d| - |d| / 2;
      var c := ToDecimal(Value(d[..m]) + 1);
      |c| == m && IsDigits(c) && Value(c) == Value(d[..m]) + 1
  {
    var m := |d| - |d| / 2;
    ToDecimalSpec(Value(d[..m]) + 1);
    BumpedBasisLowerBound(d);
    BumpedBasisUpperBound(d);
    ToDecimalLength(Value(d[..m]) + 1, m);
  }

  /** Without the increment the core returns the mirror of d's own basis. */
  lemma CoreKeepsBasis(d: string)
    requires IsDigits(d) && !TakesIncrement(Split(d))
    ensures var h, m := |d| / 2, |d| - |d| / 2;
      IsDigits(d[..m]) && IsDigits(Mirror(d[..m], h)) &&
      Value(NextPalindromeDigits(d)) == Value(Mirror(d[..m], h))
  {
    var h, m := |d| / 2, |d| - |d| / 2;
    SplitAsSlices(d);
    assert d[..m][..h] == Split(d).left;
    MirrorDigits(d[..m], h);
    assert NextPalindromeDigits(d) == Mirror(d[..m], h);
  }

  /** With the increment the core returns the mirror of the bumped basis. */
  lemma CoreBumpsBasis(d: string)
    requires IsDigits(d) && TakesIncrement(Split(d))
    requires var m := |d| - |d| / 2;
      IsDigits(d[..m]) && |ToDecimal(Value(d[..m]) + 1)| == m
    ensures var h, m := |d| / 2, |d| - |d| / 2;
      var c := ToDecimal(Value(d[..m]) + 1);
      IsDigits(Mirror(c, h)) && Value(NextPalindromeDigits(d)) == Value(Mirror(c, h))
  {
    var h := |d| / 2;
    var p := Split(d);
    var basis := p.left + p.middle;
    SplitAsSlices(d);
    assert basis == d[..|d| - h];
    DigitsWhenBumped(d);
    BumpedPalindromeIsMirror(basis, IsOdd(|d|), h);
  }

  /** In the increment branch the digits are those of the bumped basis and its mirror. */
  lemma DigitsWhenBumped(d: string)
    requires IsDigits(d) && TakesIncrement(Split(d))
    ensures var p := Split(d);
      IsDigits(p.left + p.middle) &&
      NextPalindromeDigits(d) == BumpedPalindrome(p.left + p.middle, IsOdd(|d|))
  {
    var p := Split(d);
    assert p.left + p.middle == d[..|p.left + p.middle|];
  }

  /** The increment branch mirrors the successor of the basis about its first h digits. */
  lemma BumpedPalindromeIsMirror(basis: string, isOdd: bool, h: nat)
    requires IsDigits(basis) && |ToDecimal(Value(basis) + 1)| == |basis|
    requires |basis| == if isOdd then h + 1 else h
    ensures var c := ToDecimal(Value(basis) + 1);
      IsDigits(Mirror(c, h)) && BumpedPalindrome(basis, isOdd) == Mirror(c, h)
  {
    var c := ToDecimal(Value(basis) + 1);
    ToDecimalSpec(Value(basis) + 1);
    var half := if isOdd then ShaveLast(c) else c;
    assert half == c[..h];
    MirrorDigits(c, h);
  }

  /** When the plain mirror does not exceed n, the mirror of the bumped basis does. */
  lemma BumpedMirrorExceeds(d: string)
    requires KeepsWidthOnIncrement(d)
    requires var h, m := |d| / 2, |d| - |d| / 2;
      IsDigits(d[..m]) && IsDigits(Mirror(d[..m], h)) && Value(Mirror(d[..m], h)) <= Value(d)
    ensures var h, m := |d| / 2, |d| - |d| / 2;
      var c := ToDecimal(Value(d[..m]) + 1);
      |c| == m && IsDigits(Mirror(c, h)) && Value(d) < Value(Mirror(c, h))
  {
    var h, m := |d| / 2, |d| - |d| / 2;
    var c := ToDecimal(Value(d[..m]) + 1);
    BumpedBasisWidth(d);
    MirrorDigits(c, h);
    assert Mirror(c, h)[..m] == c;
    PrefixDecides(d, Mirror(c, h), m);
  }

  /**
   * No mirror of an L-digit basis lies strictly between n = Value(d) and
   * the mirror of a basis c that is either d's own basis, or d's basis plus
   * one when the mirror of d's own basis does not exceed n.
   */
  lemma NoMirrorBetween(d: string, c: string, x: string)
    requires IsDigits(d)
    requires var h, m := |d| / 2, |d| - |d| / 2;
      IsDigits(c) && |c| == m && IsDigits(d[..m]) &&
      IsDigits(Mirror(d[..m], h)) &&
      Value(d[..m]) <= Value(c) <= Value(d[..m]) + 1 &&
      (Value(c) == Value(d[..m]) + 1 ==> Value(Mirror(d[..m], h)) <= Value(d))
    requires IsDigits(x) && |x| == |d| - |d| / 2
    ensures IsDigits(Mirror(x, |d| / 2)) && IsDigits(Mirror(c, |d| / 2))
    ensures Value(Mirror(x, |d| / 2)) <= Value(d) || Value(Mirror(c, |d| / 2)) <= Value(Mirror(x, |d| / 2))
  {
    var h, m := |d| / 2, |d| - |d| / 2;
    var b := d[..m];
    MirrorDigits(x, h);
    MirrorDigits(c, h);
    if Value(x) < Value(b) {
      assert Mirror(x, h)[..m] == x;
      PrefixDecides(Mirror(x, h), d, m);
    } else if Value(x) == Value(b) {
      ValueInjective(x, b);
      if Value(c) == Value(b) {
        ValueInjective(c, b);
      }
    } else if Value(x) == Value(c) {
      ValueInjective(x, c);
    } else {
      MirrorMonotone(c, x, h);
    }
  }

  /** Hence no palindrome lies strictly between them either. */
  lemma NoPalindromeBetween(d: string, c: string, q: nat)
    requires IsDigits(d) && |d| >= 1 && Pow10(|d| - 1) <= Value(d) + 1
    requires var h, m := |d| / 2, |d| - |d| / 2;
      IsDigits(c) && |c| == m && IsDigits(d[..m]) &&
      IsDigits(Mirror(c, h)) && IsDigits(Mirror(d[..m], h)) &&
      Value(d[..m]) <= Value(c) <= Value(d[..m]) + 1 &&
      (Value(c) == Value(d[..m]) + 1 ==> Value(Mirror(d[..m], h)) <= Value(d))
    requires Value(d) < q < Value(Mirror(c, |d| / 2))
    ensures !IsPalindrome(q)
  {
    if IsPalindrome(q) {
      assert Value(Mirror(c, |d| / 2)) < Pow10(|d|);
      ToDecimalLength(q, |d|);
      var bq := PalindromeBasis(q);
      NoMirrorBetween(d, c, bq);
      assert false;
    }
  }

  /** The mirror of a suitable basis is the least palindrome above n. */
  lemma MirrorIsNext(d: string, c: string)
    requires IsDigits(d) && |d| >= 1 && Pow10(|d| - 1) <= Value(d) + 1
    requires var h, m := |d| / 2, |d| - |d| / 2;
      IsDigits(c) && |c| == m && IsDigits(d[..m]) &&
      IsDigits(Mirror(c, h)) && IsDigits(Mirror(d[..m], h)) &&
      Value(d[..m]) <= Value(c) <= Value(d[..m]) + 1 &&
      (Value(c) == Value(d[..m]) + 1 ==> Value(Mirror(d[..m], h)) <= Value(d)) &&
      Value(d) < Value(Mirror(c, h))
    ensures IsNextPalindromeOf(Value(d), Value(Mirror(c, |d| / 2)))
  {
    var h := |d| / 2;
    var mc := Mirror(c, h);
    if mc[0] == '0' {
      ValueUpperBoundLeadingZero(mc);
      assert false;
    }
    ToDecimalValue(mc);
    MirrorPalindromic(c, h);
    assert IsPalindrome(Value(mc));
    forall q | Value(d) < q < Value(mc)
      ensures !IsPalindrome(q)
    {
      NoPalindromeBetween(d, c, q);
    }
  }

  /** When the plain mirror exceeds n, the core returns it, and nothing smaller is a palindrome. */
  lemma KeptBasisIsNext(d: string)
    requires KeepsWidthOnIncrement(d) && !TakesIncrement(Split(d))
    ensures IsNextPalindromeOf(Value(d), Value(NextPalindromeDigits(d)))
  {
    var m := |d| - |d| / 2;
    MirrorExceedsIff(d);
    CoreKeepsBasis(d);
    MirrorIsNext(d, d[..m]);
  }

  /** Otherwise the core returns the mirror of the bumped basis, and nothing smaller is a palindrome. */
  lemma BumpedBasisIsNext(d: string)
    requires KeepsWidthOnIncrement(d) && TakesIncrement(Split(d))
    ensures IsNextPalindromeOf(Value(d), Value(NextPalindromeDigits(d)))
  {
    var m := |d| - |d| / 2;
    Halves(|d|);
    MirrorExceedsIff(d);
    BumpedBasisWidth(d);
    BumpedMirrorExceeds(d);
    CoreBumpsBasis(d);
    MirrorIsNext(d, ToDecimal(Value(d[..m]) + 1));
  }

  /**
   * On every input whose successor keeps its width (a canonical string
   * that is not all nines, or "0" followed by nines), `_nextPalindrome`
   * returns the least palindrome strictly greater than the input.
   */
  lemma CoreIsNextPalindrome(d: string)
    requires KeepsWidthOnIncrement(d)
    ensures IsNextPalindromeOf(Value(d), Value(NextPalindromeDigits(d)))
  {
    if TakesIncrement(Split(d)) {
      BumpedBasisIsNext(d);
    } else {
      KeptBasisIsNext(d);
    }
  }
}

=== FILE: palindrome_search.dfy ===
/**
 * `Q2_old`: the earlier, brute-force answer to the same question. It counts
 * upwards from K + 1 and stops at the first palindrome, giving up (`null`)
 * once the counter reaches `Number.MAX_SAFE_INTEGER`.
 */
module PalindromeSearch {
  import opened Results
  import opened Helpers
  import opened PalindromeCore
  import opened PalindromeApi

  method Q2Old(k: int) returns (r: Result<Option<nat>, JsError>)
    ensures r.Err? <==> k < 0 || k > MaxSafeInteger
    ensures r.Err? ==> r.error == RangeError(OutOfSafeRange)
    ensures r.Ok? && r.value.Some? ==>
      IsNextPalindromeOf(k, r.value.value) && r.value.value < MaxSafeInteger
    ensures r.Ok? && r.value.None? ==>
      forall q :: k < q < MaxSafeInteger ==> !IsPalindrome(q)
  {
    if k < 0 || k > MaxSafeInteger {
      return Err(RangeError(OutOfSafeRange));
    }
    var counter: nat := k + 1;
    while counter < MaxSafeInteger
      invariant k < counter
      invariant forall q :: k < q < counter ==> !IsPalindrome(q)
      decreases MaxSafeInteger - counter
    {
      if IsPalindrome(counter) {
        return Ok(Some(counter));
      }
      counter := counter + 1;
    }
    return Ok(None);
  }

  /**
   * Wherever the brute-force search finds the next palindrome v of a
   * positive safe integer k, `nextPalindrome(k)` returns the same v.
   */
  lemma NextPalindromeAgreesWithQ2Old(k: nat, v: nat)
    requires 0 < k <= MaxSafeInteger && IsNextPalindromeOf(k, v)
    ensures NextPalindrome(Number(k)) == Ok(v)
  {
    NextPalindromeCorrect(Number(k));
    NextPalindromeUnique(k, v, NextPalindrome(Number(k)).value);
  }
}

=== FILE: results.dfy ===
/**
 * Outcomes of the library's operations. A call either produces a value or
 * throws one of the JavaScript errors the source raises.
 */
module Results {

  datatype Result<T, E> = Ok(value: T) | Err(error: E)

  /** A value, or JavaScript's `null`. */
  datatype Option<T> = None | Some(value: T)

  /** Why a RangeError was thrown. */
  datatype RangeCause =
    | UnsafeNumber        // a JS number above Number.MAX_SAFE_INTEGER
    | NotPositive         // a value <= 0
    | OutOfSafeRange      // an integer outside [0, Number.MAX_SAFE_INTEGER]
    | InvalidArrayLength  // `new Array(n)` with n outside [0, 2^32 - 1]

  /** The JavaScript exceptions the library throws. */
  datatype JsError =
    | RangeError(cause: RangeCause)
    | TypeError
}

=== FILE: runs.dfy ===
/**
 * The meaning shared by the three compressors: a string is cut into its
 * maximal runs of one repeated character, and each run is written as the
 * character followed by its length in decimal, the length omitted when
 * it is 1.
 */
module Runs {
  import opened Decimal

  /** `len` copies of `ch`. */
  datatype Run = Run(ch: char, len: nat)

  /** The run spelled out. */
  function Expand(r: Run): (s: string)
    ensures |s| == r.len
    ensures forall i :: 0 <= i < |s| ==> s[i] == r.ch
  {
    seq(r.len, _ => r.ch)
  }

  /** The string a run list spells out. */
  function Flatten(rs: seq<Run>): string {
    if rs == [] then [] else Expand(rs[0]) + Flatten(rs[1..])
  }

  /** rs cuts s into maximal runs: non-empty runs, neighbours of different characters. */
  ghost predicate IsRunDecomposition(rs: seq<Run>, s: string) {
    (forall i :: 0 <= i < |rs| ==> rs[i].len > 0) &&
    (forall i :: 0 <= i < |rs| - 1 ==> rs[i].ch != rs[i + 1].ch) &&
    Flatten(rs) == s
  }

  /** How many copies of c the string t starts with. */
  function LeadingRunLength(c: char, t: string): (k: nat)
    ensures k <= |t|
    ensures forall i :: 0 <= i < k ==> t[i] == c
    ensures k < |t| ==> t[k] != c
  {
    if t == [] || t[0] != c then 0 else 1 + LeadingRunLength(c, t[1..])
  }

  /** The maximal runs of s, left to right. */
  function Runs(s: string): (rs: seq<Run>)
    ensures IsRunDecomposition(rs, s)
    ensures |s| > 0 ==> |rs| > 0 && rs[0] == Run(s[0], LeadingRunLength(s[0], s))
    decreases |s|
  {
    if s == [] then []
    else
      var k := LeadingRunLength(s[0], s);
      var rest := Runs(s[k..]);
      ConsRun(s, k, rest);
      [Run(s[0], k)] + rest
  }

  /** The leading run in front of a cut of the remainder into maximal runs cuts all of s. */
  lemma ConsRun(s: string, k: nat, rest: seq<Run>)
    requires |s| > 0 && k == LeadingRunLength(s[0], s)
    requires IsRunDecomposition(rest, s[k..])
    requires k < |s| ==> |rest| > 0 && rest[0].ch == s[k]
    ensures IsRunDecomposition([Run(s[0], k)] + rest, s)
  {
    ConsRunSpells(s, s[0], k, rest);
    ConsRunPositive(Run(s[0], k), rest);
    ConsRunAlternates(Run(s[0], k), rest);
  }

  /** The leading run followed by the remainder spells out s. */
  lemma ConsRunSpells(s: string, c: char, k: nat, rest: seq<Run>)
    requires k <= |s| && Flatten(rest) == s[k..]
    requires forall i :: 0 <= i < k ==> s[i] == c
    ensures Flatten([Run(c, k)] + rest) == s
  {
    var rs := [Run(c, k)] + rest;
    assert rs[1..] == rest;
    assert Expand(Run(c, k)) == s[..k];
    assert s == s[..k] + s[k..];
  }

  /** Putting a non-empty run in front keeps every run non-empty. */
  lemma ConsRunPositive(r: Run, rest: seq<Run>)
    requires r.len > 0
    requires forall i :: 0 <= i < |rest| ==> rest[i].len > 0
    ensures forall i :: 0 <= i < |[r] + rest| ==> ([r] + rest)[i].len > 0
  {
  }

  /** Putting a run in front of a list that starts with another character keeps neighbours distinct. */
  lemma ConsRunAlternates(r: Run, rest: seq<Run>)
    requires |rest| > 0 ==> rest[0].ch != r.ch
    requires forall i :: 0 <= i < |rest| - 1 ==> rest[i].ch != rest[i + 1].ch
    ensures forall i :: 0 <= i < |[r] + rest| - 1 ==> ([r] + rest)[i].ch != ([r] + rest)[i + 1].ch
  {
    var rs := [r] + rest;
    forall i | 0 <= i < |rs| - 1
      ensures rs[i].ch != rs[i + 1].ch
    {
      if i > 0 {
        assert rs[i] == rest[i - 1] && rs[i + 1] == rest[i];
      }
    }
  }

  /** A run written out: the character, then its length unless that is 1. */
  function EncodeRun(r: Run): string {
    [r.ch] + (if r.len == 1 then "" else ToDecimal(r.len))
  }

  /** The runs written out one after the other. */
  function Encode(rs: seq<Run>): string {
    if rs == [] then [] else EncodeRun(rs[0]) + Encode(rs[1..])
  }

  /** The end of the maximal run that starts at index i of s. */
  function RunEnd(s: string, i: nat): (j: nat)
    requires i < |s|
    ensures i < j <= |s|
    decreases |s| - i
  {
    if i + 1 == |s| || s[i + 1] != s[i] then i + 1 else RunEnd(s, i + 1)
  }

  /** The compression of s from index i on: the run at i written out, then the rest. */
  function CompressFrom(s: string, i: nat): string
    requires i <= |s|
    decreases |s| - i
  {
    if i == |s| then []
    else
      var j := RunEnd(s, i);
      EncodeRun(Run(s[i], j - i)) + CompressFrom(s, j)
  }

  /** The compression from i writes the maximal run at i, then goes on after it. */
  lemma CompressFromUnfold(s: string, i: nat)
    requires i < |s|
    ensures var j := RunEnd(s, i);
      CompressFrom(s, i) == EncodeRun(Run(s[i], j - i)) + CompressFrom(s, j)
  {
    var j := RunEnd(s, i);
    var piece, rest := EncodeRun(Run(s[i], j - i)), CompressFrom(s, j);
    assert CompressFrom(s, i) == piece + rest;
  }

  /** What every compressor is meant to return. */
  function Compressed(s: string): string {
    CompressFrom(s, 0)
  }

  /** Only the leading run length of t satisfies the two defining conditions. */
  lemma LeadingRunExact(c: char, t: string, k: nat)
    requires k <= |t|
    requires forall i :: 0 <= i < k ==> t[i] == c
    requires k < |t| ==> t[k] != c
    ensures LeadingRunLength(c, t) == k
  {
  }

  /** A non-empty run list spells out its first run's character first. */
  lemma FlattenHead(rs: seq<Run>)
    requires |rs| > 0 && rs[0].len > 0
    ensures |Flatten(rs)| > 0 && Flatten(rs)[0] == rs[0].ch
  {
  }

  /** Positive runs spell out the empty string only when there are none. */
  lemma FlattenEmpty(rs: seq<Run>)
    requires forall i :: 0 <= i < |rs| ==> rs[i].len > 0
    ensures Flatten(rs) == [] <==> rs == []
  {
    if rs != [] {
      FlattenHead(rs);
    }
  }

  /**
   * The cut into maximal runs is unique: any run list that spells out s
   * with non-empty runs and distinct neighbours is Runs(s).
   */
  lemma {:induction false} DecompositionUnique(rs: seq<Run>, s: string)
    requires IsRunDecomposition(rs, s)
    ensures rs == Runs(s)
    decreases |rs|
  {
    if rs == [] {
      assert s == [];
    } else {
      var r, rest := rs[0], rs[1..];
      DecompositionHead(rs, s);
      DecompositionUnique(rest, s[r.len..]);
      RunsUnfold(s);
      assert rs == [r] + rest;
    }
  }

  /** The first run of a cut into maximal runs is the leading run, and the rest cuts what follows it. */
  lemma DecompositionHead(rs: seq<Run>, s: string)
    requires IsRunDecomposition(rs, s) && rs != []
    ensures |s| > 0 && rs[0] == Run(s[0], LeadingRunLength(s[0], s))
    ensures rs[0].len <= |s| && IsRunDecomposition(rs[1..], s[rs[0].len..])
  {
    var r, rest := rs[0], rs[1..];
    var tail := Flatten(rest);
    assert s == Expand(r) + tail;
    assert forall i :: 0 <= i < |rest| ==> rest[i] == rs[i + 1];
    if rest != [] {
      FlattenHead(rest);
      assert s[r.len] == tail[0];
    } else {
      assert |s| == r.len;
    }
    LeadingRunExact(r.ch, s, r.len);
    assert s[r.len..] == tail;
  }

  /** The maximal runs of a non-empty string are its leading run, then the runs of what follows. */
  lemma RunsUnfold(s: string)
    requires |s| > 0
    ensures var k := LeadingRunLength(s[0], s);
      Runs(s) == [Run(s[0], k)] + Runs(s[k..])
  {
    var k := LeadingRunLength(s[0], s);
    var head, rest := Run(s[0], k), Runs(s[k..]);
    assert Runs(s) == [head] + rest;
  }

  /** The run from i to RunEnd(s, i) is one character repeated, and it cannot be extended. */
  lemma {:induction false} RunEndMaximal(s: string, i: nat)
    requires i < |s|
    ensures forall m :: i <= m < RunEnd(s, i) ==> s[m] == s[i]
    ensures RunEnd(s, i) < |s| ==> s[RunEnd(s, i)] != s[i]
    decreases |s| - i
  {
    if i + 1 < |s| && s[i + 1] == s[i] {
      RunEndMaximal(s, i + 1);
    }
  }

  /** Only the end of the maximal run satisfies the run conditions. */
  lemma {:induction false} RunEndExact(s: string, i: nat, j: nat)
    requires i < j <= |s|
    requires forall m :: i <= m < j ==> s[m] == s[i]
    requires j < |s| ==> s[j] != s[i]
    ensures RunEnd(s, i) == j
    decreases |s| - i
  {
    if i + 1 < j {
      RunEndExact(s, i + 1, j);
    }
  }

  /** The run at index i is the leading run of the suffix from i. */
  lemma RunEndIsLeadingRun(s: string, i: nat)
    requires i < |s|
    ensures RunEnd(s, i) == i + LeadingRunLength(s[i], s[i..])
  {
    RunEndMaximal(s, i);
    LeadingRunExact(s[i], s[i..], RunEnd(s, i) - i);
  }

  /** Compressing from index i writes out the maximal runs of the suffix from i, in order. */
  lemma {:induction false} CompressFromEncodesRuns(s: string, i: nat)
    requires i <= |s|
    ensures CompressFrom(s, i) == Encode(Runs(s[i..]))
    decreases |s| - i
  {
    if i < |s| {
      var t, j := s[i..], RunEnd(s, i);
      RunEndIsLeadingRun(s, i);
      assert t[0] == s[i];
      assert t[j - i..] == s[j..];
      var rs := Runs(t);
      assert rs[0] == Run(s[i], j - i);
      assert rs[1..] == Runs(s[j..]);
      assert Encode(rs) == EncodeRun(Run(s[i], j - i)) + Encode(Runs(s[j..]));
      CompressFromEncodesRuns(s, j);
    }
  }

  /** The compression is the maximal runs of s, each written out, in order. */
  lemma CompressedEncodesRuns(s: string)
    ensures Compressed(s) == Encode(Runs(s))
  {
    CompressFromEncodesRuns(s, 0);
    assert s[0..] == s;
  }
}

=== FILE: sieve.dfy ===
/**
 * `primes(start, end)`: the Sieve of Eratosthenes over the cells 0..end,
 * striking the multiples of each surviving x from x*x on while x*x does not
 * exceed end + 1, then collecting the surviving cells that lie in
 * [start, end] and are above 1.
 */
module Sieve {
  import opened Results
  import opened Decimal

  /** d is a positive divisor of i (i itself included). */
  predicate Divides(d: nat, i: nat) {
    d > 0 && i % d == 0
  }

  /** p is prime: at least 2 and without a divisor strictly between 1 and p. */
  predicate IsPrime(p: nat) {
    p >= 2 && forall d :: 2 <= d < p ==> !Divides(d, p)
  }

  /** i has no divisor d with 2 <= d < x and d*d <= i: what survives striking with 2..x-1. */
  predicate NoSmallFactor(i: nat, x: nat) {
    forall d :: 2 <= d < x && d * d <= i ==> !Divides(d, i)
  }

  predicate StrictlyAscending(s: seq<nat>) {
    forall i, j :: 0 <= i < j < |s| ==> s[i] < s[j]
  }

  /** The largest length `new Array(n)` accepts, 2^32 - 1. */
  const MaxArrayLength: int := 4294967295

  /**
   * `primes(start, end)`. An array length end + 1 outside
   * [0, 2^32 - 1] makes `new Array` throw; otherwise the result lists, in
   * ascending order, exactly the primes between start and end.
   */
  method Primes(start: int, end: int) returns (r: Result<seq<nat>, JsError>)
    ensures r.Err? <==> end + 1 < 0 || end + 1 > MaxArrayLength
    ensures r.Err? ==> r.error == RangeError(InvalidArrayLength)
    ensures r.Ok? ==> StrictlyAscending(r.value)
    ensures r.Ok? ==> forall p: nat :: p in r.value <==> start <= p <= end && IsPrime(p)
  {
    if end + 1 < 0 || end + 1 > MaxArrayLength {
      return Err(RangeError(InvalidArrayLength));
    }
    var n: nat := end + 1;
    var sieve := new bool[n](_ => true);
    var x: nat := 2;
    while x * x <= n
      invariant sieve.Length == n && x >= 2
      invariant forall i :: 0 <= i < n ==> (sieve[i] <==> NoSmallFactor(i, x))
      decreases n - x
    {
      MulAtLeast(x);
      if sieve[x] {
        Strike(sieve, x);
        forall i | 0 <= i < n
          ensures sieve[i] <==> NoSmallFactor(i, x + 1)
        {
          PrimeStep(i, x);
        }
      } else {
        forall i | 0 <= i < n
          ensures sieve[i] <==> NoSmallFactor(i, x + 1)
        {
          CompositeStep(i, x);
        }
      }
      x := x + 1;
    }
    forall i | 2 <= i < n
      ensures sieve[i] <==> IsPrime(i)
    {
      SurvivorsArePrime(i, x);
    }
    var acc := Collect(sieve, start);
    return Ok(acc);
  }

  /** `y = x*x; y <= n; y += x`: strikes exactly the multiples of x from x*x on. */
  method Strike(sieve: array<bool>, x: nat)
    requires x >= 2
    modifies sieve
    ensures forall i :: 0 <= i < sieve.Length ==>
      sieve[i] == (old(sieve[i]) && !(x * x <= i && Divides(x, i)))
  {
    var y := x * x;
    MultipleOfSelf(x);
    while y < sieve.Length
      invariant x * x <= y && Divides(x, y)
      invariant forall i :: 0 <= i < sieve.Length ==>
        sieve[i] == (old(sieve[i]) && !(x * x <= i < y && Divides(x, i)))
      decreases sieve.Length - y
    {
      sieve[y] := false;
      forall i | y < i < y + x
        ensures !Divides(x, i)
      {
        NoMultipleBetween(y, i, x);
      }
      NextMultiple(y, x);
      y := y + x;
    }
  }

  /** The `reduce`: surviving cells in [start, n) that are above 1, in index order. */
  method Collect(sieve: array<bool>, start: int) returns (acc: seq<nat>)
    ensures StrictlyAscending(acc)
    ensures forall p: nat :: p in acc <==> p < sieve.Length && sieve[p] && start <= p && p > 1
  {
    acc := [];
    var index := 0;
    while index < sieve.Length
      invariant 0 <= index <= sieve.Length
      invariant StrictlyAscending(acc)
      invariant forall k :: 0 <= k < |acc| ==> acc[k] < index
      invariant forall p: nat :: p in acc <==> p < index && sieve[p] && start <= p && p > 1
    {
      if sieve[index] && index >= start && index > 1 {
        acc := acc + [index];
      }
      index := index + 1;
    }
  }

  /** x < x * x from x = 2 on, so the loop counter stays below n. */
  lemma MulAtLeast(x: nat)
    requires x >= 2
    ensures x < x * x
  {
  }

  /** x * x is a multiple of x. */
  lemma MultipleOfSelf(x: nat)
    requires x >= 1
    ensures Divides(x, x * x)
  {
  }

  /** Adding x to a multiple of x gives the next one. */
  lemma NextMultiple(y: nat, x: nat)
    requires x >= 1 && Divides(x, y)
    ensures Divides(x, y + x)
  {
    var q := y / x;
    assert y + x == (q + 1) * x;
    MultipleDivides(q + 1, x);
  }

  /** No multiple of x lies strictly between two consecutive ones. */
  lemma NoMultipleBetween(y: nat, i: nat, x: nat)
    requires x >= 1 && Divides(x, y) && y < i < y + x
    ensures !Divides(x, i)
  {
    var q, p := y / x, i / x;
    MulLeIff(p, q, x);
    MulLeIff(q + 1, p, x);
    assert (q + 1) * x == q * x + x;
  }

  /** Multiplying by a positive x preserves and reflects <=. */
  lemma MulLeIff(a: nat, b: nat, x: nat)
    requires x >= 1
    ensures a <= b <==> a * x <= b * x
  {
    if a <= b {
      MulMonotone(a, b, x);
    } else {
      MulMonotone(b + 1, a, x);
      assert (b + 1) * x == b * x + x;
    }
  }

  /** Striking with a surviving x adds exactly the divisor x to the excluded ones. */
  lemma PrimeStep(i: nat, x: nat)
    requires x >= 2
    ensures NoSmallFactor(i, x + 1) <==> NoSmallFactor(i, x) && !(x * x <= i && Divides(x, i))
  {
  }

  /**
   * A struck x has a divisor d with d*d <= x: every multiple of x from x*x
   * on is a multiple of d from d*d on and was struck already.
   */
  lemma CompositeStep(i: nat, x: nat)
    requires x >= 2 && !NoSmallFactor(x, x)
    ensures NoSmallFactor(i, x + 1) <==> NoSmallFactor(i, x)
  {
    if NoSmallFactor(i, x) && x * x <= i && Divides(x, i) {
      var d :| 2 <= d < x && d * d <= x && Divides(d, x);
      DividesTransitive(d, x, i);
      MulMonotone(d * d, x, 1);
      SquareMonotone(d, x);
      assert false;
    }
  }

  /** Squaring preserves <=. */
  lemma SquareMonotone(d: nat, x: nat)
    requires d <= x
    ensures d * d <= x * x
  {
    MulMonotone(d, x, d);
    MulMonotone(d, x, x);
  }

  /** A divisor of a divisor divides. */
  lemma DividesTransitive(a: nat, b: nat, c: nat)
    requires Divides(a, b) && Divides(b, c)
    ensures Divides(a, c)
  {
    var k := b / a;
    var m := c / b;
    assert b == k * a;
    assert c == m * b;
    assert c == (m * k) * a;
    MultipleDivides(m * k, a);
  }

  /** a divides every multiple of a. */
  lemma MultipleDivides(k: nat, a: nat)
    requires a > 0
    ensures Divides(a, k * a)
  {
    var q, m := (k * a) / a, (k * a) % a;
    assert k * a == q * a + m && 0 <= m < a;
    assert (k - q) * a == m;
    if k > q {
      MulMonotone(1, k - q, a);
    } else if k < q {
      MulMonotone(1, q - k, a);
    }
  }

  /** Once x*x exceeds i, surviving the strikes with 2..x-1 is the same as being prime. */
  lemma SurvivorsArePrime(i: nat, x: nat)
    requires 2 <= i < x * x
    ensures NoSmallFactor(i, x) <==> IsPrime(i)
  {
    if !IsPrime(i) {
      var d := SmallFactor(i);
      if d >= x {
        SquareMonotone(x, d);
      }
    } else if !NoSmallFactor(i, x) {
      var d :| 2 <= d < x && d * d <= i && Divides(d, i);
      MulMonotone(2, d, d);
    }
  }

  /** A number from 2 on that is not prime has a divisor from 2 on whose square does not exceed it. */
  lemma SmallFactor(i: nat) returns (f: nat)
    requires i >= 2 && !IsPrime(i)
    ensures 2 <= f && f * f <= i && Divides(f, i)
  {
    var d :| 2 <= d < i && Divides(d, i);
    var e := i / d;
    assert i == d * e;
    CofactorBounds(d, e);
    if d * d <= i {
      f := d;
    } else {
      MultipleDivides(d, e);
      f := e;
    }
  }

  /** For d, e with d >= 2 and d < d * e: e >= 2, and when d*d > d*e, e*e <= d*e. */
  lemma CofactorBounds(d: nat, e: nat)
    requires d >= 2 && d < d * e
    ensures e >= 2
    ensures d * d > d * e ==> e * e <= d * e
  {
    if e < 2 {
      MulMonotone(e, 1, d);
    }
    if d * d > d * e {
      if d <= e {
        MulMonotone(d, e, d);
      }
      MulMonotone(e, d, e);
    }
  }
}
